=== FILE: README.md ===
# Leave requests and leave balances — a Dafny model

This project models the leave-request and leave-balance logic of a small
React + Express leave-management application. Employees apply for paid or
unpaid leave, managers approve or reject requests, employees cancel pending
requests, and each user record holds a paid and an unpaid balance. The
modelled parts are:

- **Validation of a new request** (`Days`, `Validation`). This covers:
  - the Monday-to-Friday day count of an inclusive date range;
  - the overlap flag against the user's active requests;
  - the balance flag;
  - the fixed order of the submit checks.
- **The balance ledger** (`Ledger`, `Lifecycle`). Submit debits a balance. A manager's rejection or an employee's cancel credits it back. The legacy in-memory ledger of the leave context works alongside.
- **The request lifecycle** (`Lifecycle`, `LifecycleRoundTrips`). Submit creates the request, then debits. A review patches the status, then credits on reject. A cancel patches the status, then credits. The pending and history views decide what is offered for these actions.
- **Request and record builders** (`UserService`, `LeavesService`, `EmployeeForm`). These are the PATCH bodies of the services, the team-request transform, and the HR form's new/edit user record.
- **The mock backend** (`MockServer`): an append-only list of leave records with list-all, by-owner and create handlers.
- **The legacy leave form** (`LegacyApply`). It counts calendar days, debits the local ledger first and posts second.
- **The month calendar** (`MonthCalendar`): month lengths, the first weekday, the cell grid, and previous/next navigation.

Modelling choices:

- **Dates** are integer day numbers. Day 0 is 1970-01-01, a Thursday. `Weekday(d)` numbers weekdays as `Date.getDay` does, with 0 = Sunday.
- **Network calls** become explicit success/failure parameters. They act on a `World` that holds the server's users (a map keyed by id) and leaves (a sequence). A call that fails leaves the `World` as it was. The `/users` and `/leaves/{id}` routes the services call are not among the server's source files: `backend/server.js` serves only `/api/leaves`. So `World` stands for an assumed CRUD backend at the same address, where a PATCH merges its body into the addressed record and a PATCH to an unknown id fails, as a 404 would.
- **JSON bodies** are `map<string, Json>`. An object spread `{...a, ...b}` is the map union `a + b`.
- **Components** are modelled as pure functions from what the component knows (its form, its fetched data, its state) to the new backend state and the error or report it shows. The message texts themselves are not modelled: each distinct message is one variant of an error or report datatype.

## Model

| member | source | states |
|---|---|---|
| Days.Weekday | src/subcomponents/Employee/ApplyLeave.tsx:56 | The weekday of a date is always one of the seven values 0..6. |
| Days.WeekdayAfter | src/subcomponents/Employee/ApplyLeave.tsx:55-56 | Stepping a date forward n days moves its weekday forward n places, modulo 7. |
| Days.WeekdayCount | src/subcomponents/Employee/ApplyLeave.tsx:54-61 | The count is 0 for a reversed range. It is at most the number of calendar days otherwise. |
| Days.WeekdayCountIsCardinality | src/subcomponents/Employee/ApplyLeave.tsx:54-61 | The count equals the size of the set of dates in the range that are neither Saturday nor Sunday. |
| Days.CountWeekdays | src/subcomponents/Employee/ApplyLeave.tsx:54-61 | The day-by-day loop returns exactly the number of Monday-to-Friday dates in [start, end]. It returns 0 when end < start and at most end − start + 1 otherwise. |
| Days.WeekendCount | src/subcomponents/ApplyLeave.tsx:20-25 | The number of Saturdays and Sundays in a range is 0 for a reversed range. |
| Days.WeekdaysPlusWeekends | src/subcomponents/ApplyLeave.tsx:20-25 | The weekdays and the weekend days of a range together are all of its calendar days, end − start + 1. |
| Days.WeekdayCountShift | src/subcomponents/Employee/ApplyLeave.tsx:54-60 | Moving a range by a whole week does not change its day count. |
| Days.FullWeek | src/subcomponents/Employee/ApplyLeave.tsx:54-60 | Any seven consecutive dates count as five days. |
| Days.WorkWeekCounts | src/subcomponents/Employee/ApplyLeave.tsx:54-60 | Monday–Friday counts 5 and Tuesday–Thursday counts 3. |
| Validation.DaysRequested | src/subcomponents/Employee/ApplyLeave.tsx:50-80 | The day count is 0 while a date is empty. Otherwise it is the number of weekdays in the inclusive range: 0 when reversed, at most end − start + 1. |
| Validation.RangesIntersectSymmetric | src/subcomponents/Employee/ApplyLeave.tsx:73 | The inclusive intersection test gives the same answer with the two ranges swapped. |
| Validation.RangesIntersectIffCommonDay | src/subcomponents/Employee/ApplyLeave.tsx:73 | For non-empty ranges, the test holds exactly when some date lies in both ranges, endpoints included. |
| Validation.AnyConflict | src/subcomponents/Employee/ApplyLeave.tsx:64-74 | `some` holds exactly when some existing request is neither cancelled nor rejected and its range intersects the new one. |
| Validation.OverlapFlag | src/subcomponents/Employee/ApplyLeave.tsx:62-80 | The flag is false while a date is empty. Otherwise it is true exactly when an active request intersects the chosen range. |
| Validation.BalanceErrorEffect | src/subcomponents/Employee/ApplyLeave.tsx:82-94 | With a positive count, the flag is set exactly when the count exceeds the chosen type's balance. With count ≤ 0 the flag keeps its previous value. |
| Validation.BalanceErrorIgnoresOtherType | src/subcomponents/Employee/ApplyLeave.tsx:84-89 | Changing the balance of the type not chosen never changes the flag. |
| Validation.CheckSubmit | src/subcomponents/Employee/ApplyLeave.tsx:106-125 | Each error is reported exactly when all earlier checks pass and its own fails. The order is: no user, no manager, no days, insufficient balance, overlap. No error means every check passed. |
| Ledger.ApplyLeave | src/subcomponents/LeaveContext.tsx:28-36 | A covered request debits exactly the chosen balance. An uncovered one alerts and changes nothing. The other balance never changes. |
| Ledger.ApplyLeaveKeepsBalancesInRange | src/subcomponents/LeaveContext.tsx:28-36 | With a non-negative request and non-negative balances, the balances stay non-negative and never grow. |
| Ledger.ApplyAllFromInitial | src/subcomponents/LeaveContext.tsx:13-36 | From balances in 0..20 (the 20/20 start included), any series of non-negative requests keeps both balances in 0..20. |
| Ledger.ApplyAllConservesDays | src/subcomponents/LeaveContext.tsx:28-36 | Over any series of requests, the days actually debited equal what the two balances lost. |
| UserService.ValidateUser | src/services/userService.ts:17-19 | The result is null exactly when no user has both credentials. Otherwise it is the first user in list order that has both. |
| UserService.UpdateLeaveBalance | src/services/userService.ts:25-36 | The request is a PATCH of `/users/{userId}`. Its body has the one key of the chosen type, set to `currentBalance`. |
| UserService.UpdateLeaveBalanceIgnoresDays | src/services/userService.ts:26-34 | The request does not depend on `days`. |
| UserService.PatchUser | src/services/userService.ts:30-34 | Merging a PATCH body into a stored user keeps its id, name, credentials, role and manager. It keeps every balance whose key the body lacks. |
| UserService.PatchUserAppliesBalance | src/services/userService.ts:28-34 | The balance PATCH, applied to the addressed user, sets exactly the chosen balance to the value sent. |
| LeavesService.VerdictStatus | src/services/leavesService.ts:43 | A review outcome is always approved or rejected. |
| LeavesService.LeaveTargetOf | src/services/leavesService.ts:29-45 | `leaves/{id}` and `/leaves/{id}` both address leave `id`. |
| LeavesService.CancelLeaveRequest | src/services/leavesService.ts:27-34 | The request is a PATCH of `leaves/{id}`. Its body is exactly status `cancelled` plus the given userId. |
| LeavesService.UpdateLeaveRequest | src/services/leavesService.ts:43-50 | The request is a PATCH of `/leaves/{id}`. Its body is exactly the verdict's status plus `processedAt`. |
| LeavesService.UpdateLeaveStatus | src/services/leavesService.ts:81-88 | The request is a PATCH of `leaves/{id}`. Its body holds the verdict's status and, when defined, the manager's comment. |
| LeavesService.PatchLeave | src/services/leavesService.ts:27-33 | Merging a PATCH body into a stored leave changes only its status and owner, and only the ones the body names. |
| LeavesService.PatchLeaveSetsStatus | src/services/leavesService.ts:27-88 | Each of the three status PATCHes moves the leave to the status it names. |
| LeavesService.WithEmployee | src/services/leavesService.ts:58-65 | A transformed leave keeps every field. It gains `employee` = {id: the leave's userId, name: "Unknown"}. |
| LeavesService.TeamTransform | src/services/leavesService.ts:54-79 | The transform keeps the number and order of leaves and maps each one through `WithEmployee`. |
| LeavesService.TeamTransformRoundTrip | src/services/leavesService.ts:58-65 | Removing `employee` from each transformed leave gives back the server's leaves. |
| MockServer.GetAll | backend/server.js:29-31 | GET /api/leaves answers with every stored record, in insertion order, and so every record any by-owner query can return. |
| MockServer.GetByUser | backend/server.js:33-36 | The result is exactly the stored records whose `userId` is the one asked for. |
| MockServer.NewRecord | backend/server.js:40-45 | The stored record always has status `pending` and the server's `submittedAt`. A body `id` wins over the timestamp. Every other body field is kept. |
| MockServer.Post | backend/server.js:38-47 | POST appends exactly one record, leaves earlier records unchanged, and answers with the record it stored. |
| MockServer.PostThenGet | backend/server.js:29-47 | After a POST, list-all is the old store plus the new record. The by-owner list gains the record exactly when it belongs to that owner, in insertion order. |
| MockServer.GetByUserOfOwnStore | backend/server.js:33-36 | The by-owner list of a store holding only that owner's records is the whole store. |
| Lifecycle.PatchUserRemote | src/services/userService.ts:25-36 | A user PATCH fails exactly on a network error or an unknown id. Otherwise it merges the body into that user alone. |
| Lifecycle.PatchLeaveRemote | src/services/leavesService.ts:27-33 | A leave PATCH fails exactly on a network error or an unknown id. Otherwise it merges the body into the first leave with that id. |
| Lifecycle.CreateLeaveRemote | src/services/leavesService.ts:16-25 | A successful create appends the request. A failed one changes nothing. |
| Lifecycle.NewRequest | src/subcomponents/Employee/ApplyLeave.tsx:127-137 | The built request is pending, belongs to the user, and carries the form's dates, category, type, reason and day count, with the submit time as `submittedAt`. |
| Lifecycle.Submit | src/subcomponents/Employee/ApplyLeave.tsx:102-177 | A failed check changes nothing and creates nothing. A request is created only when every check passed; it is pending and its days are the range's weekday count. A failed create debits nothing. A failed debit leaves the balances as they were. Success debits exactly the chosen balance, both locally and on the server. |
| Lifecycle.SubmitKeepsBalancesNonNegative | src/subcomponents/Employee/ApplyLeave.tsx:114-160 | From a view matching the server, submit never drives a balance below zero. |
| Lifecycle.OverlappingWeekRefused | src/subcomponents/Employee/ApplyLeave.tsx:62-125 | With a pending Monday–Friday request on file, a Tuesday–Thursday request is refused as overlapping and nothing changes. |
| Lifecycle.PatchVerdict | src/subcomponents/Manager/ManagerLeaveRequests.tsx:42-46 | The review's status PATCH sets the addressed request to the verdict's status and changes nothing else. It fails exactly on a network error or an unknown id. |
| Lifecycle.CreditOwner | src/subcomponents/Manager/ManagerLeaveRequests.tsx:49-60 | The rejection credit sets the owner's balance of the request's type to the fetched balance plus the request's days. |
| Lifecycle.CreditBalance | src/subcomponents/Manager/ManagerLeaveRequests.tsx:55-60 | A balance PATCH sets exactly the named user's balance of the given type to the read balance plus the days. It fails exactly on a network error or an unknown user, and never touches a request. |
| Lifecycle.Review | src/subcomponents/Manager/ManagerLeaveRequests.tsx:34-75 | Without a selection it reports "No leave request selected" and changes nothing. It fails exactly when one of its calls fails. A failed status PATCH changes nothing. Approval never touches a balance. An unknown owner still gets the status change but no credit. A completed review moves the request to the verdict and clears the selection and comment. A rejection credits exactly the request's type. The addressed request's status is the only change to the request list, and a failed review changes no balance. |
| Lifecycle.ReviewTargets | src/subcomponents/Manager/ManagerLeaveRequests.tsx:119-127 | The rows offering Review are exactly the pending ones. |
| Lifecycle.PendingRequests | src/subcomponents/Employee/LeaveStatus.tsx:41 | The status view holds exactly the user's pending requests. |
| Lifecycle.LeaveHistory | src/subcomponents/Employee/LeaveHistory.tsx:26-28 | The history holds exactly the requests that have a status other than pending. It is never longer than the input. |
| Lifecycle.ViewsKeepOrder | src/subcomponents/Employee/LeaveHistory.tsx:26-28 | Both views distribute over concatenation, so each keeps the input order. |
| Lifecycle.PendingAndHistoryPartition | src/subcomponents/Employee/LeaveHistory.tsx:26-28 | When every request has a status, the pending and history views split the requests. Each request lands in exactly one of them. |
| Lifecycle.PatchCancelled | src/subcomponents/Employee/LeaveStatus.tsx:45 | The cancel PATCH marks the addressed request cancelled, with the caller as its owner, and changes nothing else. It fails exactly on a network error or an unknown id. |
| Lifecycle.Cancel | src/subcomponents/Employee/LeaveStatus.tsx:43-64 | The cancel succeeds exactly when both calls succeed and the user record is present. A failed status PATCH changes nothing. Without the user record, no credit is made. Any failure shows the fixed retry message. Success cancels the request and credits exactly its type. The addressed request becoming cancelled is the only change to the request list. No step reads the request's status on the server. |
| LifecycleRoundTrips.CreatedIsFound | src/subcomponents/Employee/ApplyLeave.tsx:138 | After a successful submit, the new request is the last one on the server and the only one with its id. |
| LifecycleRoundTrips.SubmitDebitsOwner | src/subcomponents/Employee/ApplyLeave.tsx:139-160 | A successful submit from a fresh view debits the owner's record on the server by the request's days. |
| LifecycleRoundTrips.RejectCreditsOwner | src/subcomponents/Manager/ManagerLeaveRequests.tsx:49-60 | A rejection read against the owner's current record credits that record and rejects the request. |
| LifecycleRoundTrips.SubmitThenRejectRestores | src/subcomponents/Manager/ManagerLeaveRequests.tsx:48-60 | After a submit and then a rejection, every user record is back to what it was. The request stays on file as rejected. |
| LifecycleRoundTrips.RejectOfDebitedRestores | src/subcomponents/Manager/ManagerLeaveRequests.tsx:49-60 | Rejecting a request whose days were debited from its owner, with both calls succeeding, gives back the user records from before the debit. |
| LifecycleRoundTrips.SubmitThenCancelRestores | src/subcomponents/Employee/LeaveStatus.tsx:43-56 | After a submit and then a cancel, every user record is back to what it was. The request stays on file as cancelled. |
| LifecycleRoundTrips.CancelOfDebitedRestores | src/subcomponents/Employee/LeaveStatus.tsx:43-56 | Cancelling a request whose days were debited from its owner, with both calls succeeding, gives back the user records from before the debit. |
| LifecycleRoundTrips.SubmitThenApproveKeepsDebit | src/subcomponents/Manager/ManagerLeaveRequests.tsx:49-64 | After a submit and then an approval, the debit stays and the request is approved. |
| LifecycleRoundTrips.SecondOverlappingSubmitRefused | src/subcomponents/Employee/ApplyLeave.tsx:62-125 | Once a request is created, a second request by the same user over an intersecting range is refused as overlapping, provided the second form works from a view re-read from the server after the create. |
| LifecycleRoundTrips.StaleResubmitAccepted | src/subcomponents/Employee/ApplyLeave.tsx:42-160 | The form does not re-read its request list after a submit. Submitting the same form again from that stale view is accepted when the balance covers both: the server then holds two requests for the same range and the owner is debited twice. |
| LifecycleRoundTrips.CancelCreditsCurrentBalance | src/subcomponents/Employee/LeaveStatus.tsx:43-56 | A cancel from an up-to-date user record credits the request's days on top of the current balance, whatever the request's status on the server. |
| LifecycleRoundTrips.RejectThenStaleCancelCreditsTwice | src/subcomponents/Employee/LeaveStatus.tsx:35-58 | After a submit and a rejection that has already credited the request back, a cancel from the cached pending list succeeds. When the user record the cancel reads is newer than the list, read after the rejection, the owner ends with the days credited twice: the balance before the submit plus the request's days. With a record cached together with the list, the cancel only writes back the restored balance. |
| LifecycleRoundTrips.RejectCreditsGivenRecord | src/subcomponents/Manager/ManagerLeaveRequests.tsx:49-60 | A rejection whose two calls succeed credits the request's days on top of the balance in the record it is handed, whatever balance the server holds. |
| LifecycleRoundTrips.CancelThenStaleRejectRestatus | src/subcomponents/Manager/ManagerLeaveRequests.tsx:27-66 | After a submit and a cancel that has already credited the request back, a rejection from the manager's stale row succeeds and turns the cancelled request into a rejected one. With the owner record cached with the row before the cancel, it credits nothing extra: the balance stays at the pre-submit value. |
| LifecycleRoundTrips.CachedRecordRejectOverCredits | src/subcomponents/Manager/EmployeeFetcher.tsx:10-11 | A rejection handed an owner record cached before the submit's debit ends `days` above the pre-submit balance: the pre-debit balance plus the request's days. The by-id query behind that record is never invalidated. |
| GuardedLifecycle.CancelChecked | src/subcomponents/Employee/LeaveStatus.tsx:43-64 | Corrected cancel. It refuses a request that is not pending on the server, changing nothing. On a pending request it is the cancel as written. |
| GuardedLifecycle.ReviewChecked | src/subcomponents/Manager/ManagerLeaveRequests.tsx:34-75 | Corrected review. With a selection, it refuses a request that is not pending on the server, changing nothing. Otherwise it is the review as written. |
| GuardedLifecycle.Step | src/subcomponents/Employee/LeaveStatus.tsx:43-64 | A guarded cancel or review that makes no credit changes no balance. A review is always sent for the selected request's own id, as the Approve and Reject buttons do. |
| GuardedLifecycle.StepKeepsSettled | src/subcomponents/Manager/ManagerLeaveRequests.tsx:42-46 | No guarded action puts a request back to pending: a request that is approved, rejected or cancelled stays so. |
| GuardedLifecycle.StepCreditsOnlyPending | src/subcomponents/Employee/LeaveStatus.tsx:45-56 | A guarded action credits only a request that was pending on the server, and leaves that request no longer pending. |
| GuardedLifecycle.CreditedAtMostOnce | src/subcomponents/Employee/LeaveStatus.tsx:43-64 | In any run of guarded cancels and reviews, started from lists however stale, each request is credited at most once. A request that is no longer pending is never credited. This counts credits, not amounts: a credit computed from a cached record can still be the wrong amount (`ReviewFromServer`). |
| GuardedLifecycle.SubmittedIsPending | src/subcomponents/Employee/ApplyLeave.tsx:127-143 | A request just created by a successful submit is pending on the server, so on the ordinary paths the guarded review and cancel agree with the ones as written. |
| GuardedLifecycle.ReviewFromServer | src/subcomponents/Manager/ManagerLeaveRequests.tsx:34-75 | Corrected review that reads the owner's record from the server. It refuses a request that is not pending, changing nothing. Only a completed rejection changes a balance. |
| GuardedLifecycle.ServerRejectCreditsExactly | src/subcomponents/Manager/ManagerLeaveRequests.tsx:49-60 | With the record read from the server, a completed rejection adds exactly the request's days to the owner's current balance and changes no other user. |
| GuardedLifecycle.CancelFromServer | src/subcomponents/Employee/LeaveStatus.tsx:43-64 | Corrected cancel that reads the user's record from the server. It refuses a request that is not pending. A successful cancel adds exactly the request's days to the user's current balance, and nothing else changes any balance. |
| GuardedLifecycle.ServerRecordRejectRestores | src/subcomponents/Manager/ManagerLeaveRequests.tsx:49-60 | With the record read from the server, submit followed by a rejection puts the owner back exactly at the pre-submit balance. |
| GuardedLifecycle.RejectThenGuardedCancelRefused | src/subcomponents/Employee/LeaveStatus.tsx:43-64 | With the guard, a cancel from the stale list after a rejection fails and changes nothing. The owner is back at the balance from before the submit. |
| LifecycleRoundTrips.PaidWeekScenario | src/subcomponents/Employee/ApplyLeave.tsx:50-160 | With ten paid days, a paid Monday–Friday request counts and debits 5. A rejection restores 10. |
| LegacyApply.CalendarDays | src/subcomponents/ApplyLeave.tsx:20-25 | The count is 0 while a date is empty. It is positive exactly when start ≤ end, 1 when start = end, and never below the weekday count. For start ≤ end it is the weekdays plus the Saturdays and Sundays of the range: weekends are counted as leave days. |
| LegacyApply.CalendarEqualsWeekdaysIffNoWeekend | src/subcomponents/ApplyLeave.tsx:20-25 | The calendar count equals the weekday count exactly when the range contains no Saturday or Sunday. |
| LegacyApply.Cleared | src/subcomponents/ApplyLeave.tsx:58-61 | After a post, the dates and reason are emptied and the category and type are kept. |
| LegacyApply.PostBody | src/subcomponents/ApplyLeave.tsx:42-50 | The posted body has exactly the seven fields of the form. Its owner is the fixed placeholder id. |
| LegacyApply.Deliver | src/subcomponents/ApplyLeave.tsx:41-66 | After the local step, a successful post appends the stamped record, reports the days deducted and clears the form. A failed post changes only the report. The ledger stays as the local step left it. |
| LegacyApply.Submit | src/subcomponents/ApplyLeave.tsx:27-79 | A count ≤ 0 reports invalid dates and changes nothing. Otherwise the local ledger is debited first. The post appends the request and reports it submitted. A backend failure reports a local success and keeps the debit. |
| LegacyApply.UncoveredRequestIsPosted | src/subcomponents/ApplyLeave.tsx:36-56 | A request above its balance is still posted and reported as deducted, while the ledger is untouched. |
| LegacyApply.SubmitChecked | src/subcomponents/ApplyLeave.tsx:36-75 | Every success report matches the ledger. The store grows only when the ledger was debited. An uncovered request is reported as insufficient and changes nothing. |
| LegacyApply.SubmitCheckedAgreesWhenCovered | src/subcomponents/ApplyLeave.tsx:27-79 | When the balance covers the request, the corrected form and the form as written behave the same. |
| MonthCalendar.JsFullYear | src/components/DynamicCalender.tsx:22 | A year argument 0..99 is read as 1900..1999. Any other year is read unchanged. |
| MonthCalendar.MonthLength | src/components/DynamicCalender.tsx:21-23 | The month table: 31 or 30 days, and February 29 exactly in leap years. |
| MonthCalendar.YearLength | src/components/DynamicCalender.tsx:21-23 | Consecutive Januaries lie 366 days apart in leap years and 365 otherwise. |
| MonthCalendar.MonthEnd | src/components/DynamicCalender.tsx:21-23 | Day 0 of month m + 1 lies the table's length of month m, minus one, after the first of m. This holds across a year end too. |
| MonthCalendar.GetDaysInMonth | src/components/DynamicCalender.tsx:21-23 | The day of month of `new Date(year, month + 1, 0)` is the table's length of that month. |
| MonthCalendar.GetFirstDayOfMonth | src/components/DynamicCalender.tsx:25-27 | The first weekday is in 0..6. It is the weekday of New Year's Day of the civil year the month falls in, moved on by the days of the months before it, modulo 7. |
| MonthCalendar.MakeDateInYear | src/components/DynamicCalender.tsx:22-26 | `new Date(year, month, day)` with month 0..11 and a day within the month's length lies in the year the constructor reads, between its New Year's Day and the next one. Together, this lemma and `DayCarry`, `MonthCarry` and `DecemberBefore` are the contract of `MonthCalendar.MakeDate`. |
| MonthCalendar.DayCarry | src/components/DynamicCalender.tsx:22 | Day d + 1 of a month is the day after day d, whatever d is, so day 0 is the day before the first. |
| MonthCalendar.MonthCarry | src/components/DynamicCalender.tsx:22 | Month m + 12 of a year is month m of the next year. Years −1 and 99 are excluded because the next year is read differently there (99 becomes 1999, 100 stays 100). |
| MonthCalendar.DecemberBefore | src/components/DynamicCalender.tsx:22-26 | Month −1 is December of the year before: its first day lies 31 days before the first of January. |
| MonthCalendar.NextMonthStartsAfterLast | src/components/DynamicCalender.tsx:21-27 | Month m + 1 starts on the weekday after the last day of month m. |
| MonthCalendar.KnownFirstDay | src/components/DynamicCalender.tsx:25-27 | January 2024 starts on a Monday. |
| MonthCalendar.KnownFebruaries | src/components/DynamicCalender.tsx:21-23 | February has 29 days in 2024 and 2000, and 28 in 2023 and 1900. |
| MonthCalendar.CalendarCells | src/components/DynamicCalender.tsx:31-37 | There are firstDay + daysInMonth cells: the first firstDay are empty and the rest are 1..daysInMonth in order. |
| MonthCalendar.MonthCells | src/components/DynamicCalender.tsx:28-37 | A month's grid has 28..42 cells. The day numbers ascend and each of 1..daysInMonth appears. |
| MonthCalendar.Next | src/components/DynamicCalender.tsx:47-55 | Month 11 goes to (year + 1, 0); any other month m goes to m + 1. The month stays in 0..11 and the month index grows by one. |
| MonthCalendar.Prev | src/components/DynamicCalender.tsx:38-46 | Month 0 goes to (year − 1, 11); any other month m goes to m − 1. The month stays in 0..11 and the month index drops by one. |
| MonthCalendar.NavigationRoundTrip | src/components/DynamicCalender.tsx:38-55 | Previous after next, and next after previous, return to the same month. |
| MonthCalendar.ForwardIndex | src/components/DynamicCalender.tsx:47-55 | k steps forward stay on valid months and advance the month index by exactly k. |
| MonthCalendar.NextShowsFollowingMonth | src/components/DynamicCalender.tsx:21-55 | For years outside −1..99, the next month displayed starts the day after the displayed month ends. |
| MonthCalendar.NextStartsOnFollowingWeekday | src/components/DynamicCalender.tsx:25-55 | For years outside −1..99, the next month's grid starts on the weekday after the last day shown. |
| EmployeeForm.Trim | src/subcomponents/HR/EmployeeForm.tsx:51 | A trimmed name has no JavaScript whitespace at either end. |
| EmployeeForm.TrimTakesMiddle | src/subcomponents/HR/EmployeeForm.tsx:51 | Trimming removes only whitespace, and only from the two ends. |
| EmployeeForm.TrimFixesExactlyTrimmed | src/subcomponents/HR/EmployeeForm.tsx:51 | Trimming leaves a name unchanged exactly when it has no whitespace at either end. |
| EmployeeForm.TrimIdempotent | src/subcomponents/HR/EmployeeForm.tsx:51 | Trimming twice is trimming once. |
| EmployeeForm.FormFields | src/subcomponents/HR/EmployeeForm.tsx:50-61 | Both branches write the trimmed name, role, email and password, and only those fields. |
| EmployeeForm.NewUser | src/subcomponents/HR/EmployeeForm.tsx:52-61 | A new user gets the time-based id, leaves 0, and paid and unpaid balances of 10. |
| EmployeeForm.SubmitRecord | src/subcomponents/HR/EmployeeForm.tsx:48-65 | An edit keeps every field of the user except the four form fields, including id and balances. Without a user to edit, the record is a new user. |
| EmployeeForm.SubmitIgnoresReportsTo | src/subcomponents/HR/EmployeeForm.tsx:50-61 | The `reportsTo` input has no effect on the submitted record. |
| EmployeeForm.UnchangedEditRoundTrip | src/subcomponents/HR/EmployeeForm.tsx:51 | Saving an edit whose inputs are the record's own values gives back the record itself. |
| Types.CreditUndoesDebit | src/subcomponents/Employee/LeaveStatus.tsx:49-50 | Crediting back the days a debit took restores the user record exactly. |
| Types.ParseStatus | src/types.ts:24 | A recognised status string reads back to the status it names. |
| Json.Spread | backend/server.js:40-45 | An object spread has the keys of both objects. The later object wins where both have a key. |
| Seqs.Filter | backend/server.js:34 | A filter result is never longer than its input. It holds exactly the input elements that satisfy the predicate. |

## Left out

- RTK Query machinery is replaced by explicit success/failure parameters: caching, tags, hooks, `unwrap` and `refetch`. Which views are re-read is stated per member. The cancel PATCH invalidates the cached leave lists, and the status view refetches both of its queries after a cancel. The manager view refetches only its team list after a review. Nothing is re-read after a submit: the leave form keeps its cached request list and user record and updates only its local balances (`LifecycleRoundTrips.StaleResubmitAccepted`).
- `alert`, `console`, `setTimeout`, `sessionStorage` persistence and rendering are not modelled. This includes `isProcessing` and the Loading states.
- The Express/CORS server setup and its 500 error path are not modelled. The leave records of the mock backend are kept as JSON objects.
- Date parsing, time zones and the millisecond `Math.ceil` arithmetic are not modelled. Dates are integer day numbers, and an empty date input is `None`. Unparsable dates, which give `NaN` in JavaScript, are not modelled.
- Leave.employeeId is not modelled: no part of the leave logic reads it.
- Key order of JSON objects is not modelled.
- Lifecycle.Submit: models the employee form after its effects have settled. The day count, the overlap flag and the balance flag are recomputed from the form. A submit during the render before an effect runs is not modelled.
- UserService.PatchUser: only the two balance keys of a PATCH body are applied to the typed user. The user PATCHes of the leave logic send nothing else.
- LeavesService.PatchLeave: `managerComment` and `processedAt` are dropped from the typed leave, because no part of the leave logic reads them back.
- LifecycleRoundTrips.SecondOverlappingSubmitRefused: assumes a view re-read after the create. The source never re-reads one: `applyLeave` and `updateLeaveBalance` invalidate no cached query, so a second submit from the same form sees the old request list (`StaleResubmitAccepted`).
- Lifecycle.Review: the code never checks the current status before patching. It relies on the Review button, which only pending rows show (`ReviewTargets`). Those rows come from the cached team list, refetched only after the manager's own review, so a request cancelled meanwhile can still be rejected. The balance is credited from the owner record of `EmployeeFetcher`, a by-id query nothing invalidates. A record cached before a later debit makes the rejection over-credit (see Findings).
- Lifecycle.Cancel: the code never checks the current status before patching and crediting. The pending filter reads a cached, unpolled query, so a request rejected meanwhile can still be cancelled. It is credited again when the user record is newer than the list (see Findings). The corrected `GuardedLifecycle.CancelChecked` and `ReviewChecked` credit each request at most once.
- LegacyApply.PostBody: the dates are posted as day numbers rather than the form's date strings.
- MonthCalendar.NextShowsFollowingMonth: excludes years −1..99. There the `Date` constructor reads the year argument as 1900..1999, so the months shown are those of the 1900s. The exclusion is wider than it has to be: `MonthCarry` fails only at years −1 and 99, and years 0..98 stay consistent within the 1900s. The lemma simply does not claim them.
- MonthCalendar.NextStartsOnFollowingWeekday: excludes years −1..99 for the same reason, with the same over-wide exclusion.
- The user id `Date.now().toString()` of a new employee is a parameter: the clock is outside the model.
- The form loading of the HR employee form (`useEffect` on `userToEdit`) is not modelled.
- The other endpoints of the two services are not modelled: list and fetch queries, `addUser`, `updateUser`, `deleteUser`. They are plain CRUD with no logic.

## Findings

| source | as written | input that shows it | evidently intended | confidence | as-written member | corrected member |
|---|---|---|---|---|---|---|
| src/subcomponents/ApplyLeave.tsx:36-56 | The ledger's `applyLeave` only alerts when the balance does not cover the request. `handleSubmit` then carries on: it posts the request and reports "N days deducted". Its catch branch for an "Insufficient" error is never reached. | Balances 20/20, paid, a 25-day range: the request is posted as pending and reported as 25 days deducted, and the ledger still holds 20. | An uncovered request is reported as insufficient and is neither debited nor posted. | medium, not executed | LegacyApply.Submit, LegacyApply.UncoveredRequestIsPosted | LegacyApply.SubmitChecked |
| src/subcomponents/Employee/LeaveStatus.tsx:41-58 | `handleCancel` patches the status and credits the balance without reading the request's status on the server. It trusts the pending filter over a cached query that is not polled. The manager's review does the same from a team list refetched only after the manager's own reviews (ManagerLeaveRequests.tsx:27,66). | A paid 5-day request is submitted, then rejected: the balance is back where it was. The employee's cached list still shows the request as pending. Cancelling it succeeds. If the user record it reads was fetched after the rejection, while the list stayed cached, it credits 5 more days. A record loaded together with the list credits nothing extra. On the manager side, a cancel followed by a rejection from the stale row succeeds and turns the request from cancelled to rejected. | Only a request still pending on the server is cancelled or reviewed, so each request is credited at most once. | medium, not executed | LifecycleRoundTrips.RejectThenStaleCancelCreditsTwice, LifecycleRoundTrips.CancelThenStaleRejectCreditsTwice | GuardedLifecycle.CreditedAtMostOnce, GuardedLifecycle.RejectThenGuardedCancelRefused |
| src/subcomponents/Manager/ManagerLeaveRequests.tsx:49-60 | A rejection credits `employee.paidLeaveBalance + days`, reading the balance from the `EmployeeFetcher` record (EmployeeFetcher.tsx:11). The `fetchUserById` query behind it provides no tag, so no balance PATCH invalidates it and the manager's `refetch` reloads only the team list. | The manager views an employee's first request, which caches the record at 10 paid days. The employee submits a second, 5-day paid request: the server debits to 5. The team list refetches after another review, and the manager rejects the new request. The credit writes 10 + 5 = 15. | A rejection adds the request's days to the owner's current balance on the server. | medium, not executed | LifecycleRoundTrips.CachedRecordRejectOverCredits | GuardedLifecycle.ServerRejectCreditsExactly, GuardedLifecycle.ServerRecordRejectRestores |

=== FILE: days.dfy ===
/** Day numbers and the weekday count of an inclusive date range.
    Day 0 is 1970-01-01, a Thursday; weekdays are numbered as
    `Date.getDay` numbers them, 0 = Sunday .. 6 = Saturday. */
module Days {

  function Weekday(d: int): (w: int)
    ensures 0 <= w < 7
  {
    (d + 4) % 7
  }

  /** `n` days after a date falls `n` weekdays later, modulo the week. */
  lemma WeekdayAfter(d: int, n: int)
    ensures Weekday(d + n) == (Weekday(d) + n) % 7
  {
  }

  /** Monday to Friday. */
  predicate IsWeekday(d: int) {
    Weekday(d) != 0 && Weekday(d) != 6
  }

  /** The Monday-to-Friday dates of the inclusive range [start, end]. */
  ghost function WeekdaySet(start: int, end: int): set<int> {
    set d | start <= d <= end && IsWeekday(d)
  }

  /** Number of Monday-to-Friday dates in [start, end]. */
  function WeekdayCount(start: int, end: int): (n: nat)
    ensures end < start ==> n == 0
    ensures start <= end ==> n <= end - start + 1
    decreases end - start
  {
    if end < start then 0
    else WeekdayCount(start, end - 1) + (if IsWeekday(end) then 1 else 0)
  }

  /** Number of Saturdays and Sundays in [start, end]. */
  function WeekendCount(start: int, end: int): (n: nat)
    ensures end < start ==> n == 0
    decreases end - start
  {
    if end < start then 0
    else WeekendCount(start, end - 1) + (if IsWeekday(end) then 0 else 1)
  }

  /** Every date of a range is either a weekday or a weekend day, so the two
      counts add up to the length of the range. */
  lemma {:induction false} WeekdaysPlusWeekends(start: int, end: int)
    requires start <= end + 1
    ensures WeekdayCount(start, end) + WeekendCount(start, end) == end - start + 1
    decreases end - start
  {
    if start <= end {
      WeekdaysPlusWeekends(start, end - 1);
    }
  }

  /** The count is exactly the size of the set of weekdays in the range. */
  lemma {:induction false} WeekdayCountIsCardinality(start: int, end: int)
    ensures WeekdayCount(start, end) == |WeekdaySet(start, end)|
    decreases end - start
  {
    if end < start {
      assert WeekdaySet(start, end) == {};
    } else {
      WeekdayCountIsCardinality(start, end - 1);
      var prior := WeekdaySet(start, end - 1);
      assert end !in prior;
      if IsWeekday(end) {
        assert WeekdaySet(start, end) == prior + {end};
      } else {
        assert WeekdaySet(start, end) == prior;
      }
    }
  }

  /** The range loop of the leave form: walk from `start` to `end` one day at
      a time and count the dates that are not Saturday or Sunday. */
  method CountWeekdays(start: int, end: int) returns (days: nat)
    ensures days == |WeekdaySet(start, end)|
    ensures end < start ==> days == 0
    ensures start <= end ==> days <= end - start + 1
  {
    days := 0;
    var date := start;
    while date <= end
      invariant date == start || start < date <= end + 1
      invariant days == WeekdayCount(start, date - 1)
      decreases end - date
    {
      var dayOfWeek := Weekday(date);
      if dayOfWeek != 0 && dayOfWeek != 6 {
        days := days + 1;
      }
      date := date + 1;
    }
    WeekdayCountIsCardinality(start, end);
  }

  /** Shifting a range by a whole week does not change its count. */
  lemma {:induction false} WeekdayCountShift(start: int, end: int)
    ensures WeekdayCount(start + 7, end + 7) == WeekdayCount(start, end)
    decreases end - start
  {
    if start <= end {
      WeekdayCountShift(start, end - 1);
      assert Weekday(end + 7) == Weekday(end);
    }
  }

  /** Any seven consecutive days hold exactly five weekdays. */
  lemma FullWeek(start: int)
    ensures WeekdayCount(start, start + 6) == 5
  {
    var w := Weekday(start);
    var c0 := WeekdayCount(start, start);
    var c1 := WeekdayCount(start, start + 1);
    var c2 := WeekdayCount(start, start + 2);
    var c3 := WeekdayCount(start, start + 3);
    var c4 := WeekdayCount(start, start + 4);
    var c5 := WeekdayCount(start, start + 5);
    var c6 := WeekdayCount(start, start + 6);
    assert c0 == (if IsWeekday(start) then 1 else 0);
    assert c1 == c0 + (if IsWeekday(start + 1) then 1 else 0);
    assert c2 == c1 + (if IsWeekday(start + 2) then 1 else 0);
    assert c3 == c2 + (if IsWeekday(start + 3) then 1 else 0);
    assert c4 == c3 + (if IsWeekday(start + 4) then 1 else 0);
    assert c5 == c4 + (if IsWeekday(start + 5) then 1 else 0);
    assert c6 == c5 + (if IsWeekday(start + 6) then 1 else 0);
    WeekdayAfter(start, 1);
    WeekdayAfter(start, 2);
    WeekdayAfter(start, 3);
    WeekdayAfter(start, 4);
    WeekdayAfter(start, 5);
    WeekdayAfter(start, 6);
    if w == 0 {} else if w == 1 {} else if w == 2 {} else if w == 3 {}
    else if w == 4 {} else if w == 5 {} else {}
  }

  /** A Monday-to-Friday range counts five days, a Tuesday-to-Thursday range three. */
  lemma WorkWeekCounts(monday: int)
    requires Weekday(monday) == 1
    ensures WeekdayCount(monday, monday + 4) == 5
    ensures WeekdayCount(monday + 1, monday + 3) == 3
  {
    assert Weekday(monday + 1) == 2;
    assert Weekday(monday + 2) == 3;
    assert Weekday(monday + 3) == 4;
    assert Weekday(monday + 4) == 5;
    assert WeekdayCount(monday, monday) == 1;
    assert WeekdayCount(monday, monday + 1) == 2;
    assert WeekdayCount(monday, monday + 2) == 3;
    assert WeekdayCount(monday, monday + 3) == 4;
    assert WeekdayCount(monday + 1, monday + 1) == 1;
    assert WeekdayCount(monday + 1, monday + 2) == 2;
  }
}

=== FILE: employee_form.dfy ===
/** The HR employee form's submit (src/subcomponents/HR/EmployeeForm.tsx):
    the user record handed to the save callback, either a new user with the
    starting balances or the edited user with the four form fields written
    over it. */
module EmployeeForm {
  import opened Types
  import opened Json

  /** The characters `String.prototype.trim` strips: the ECMAScript
      WhiteSpace and LineTerminator code points. */
  predicate IsJsWhitespace(c: char) {
    c == '\t' || c == '\n' || c == '\U{000B}' || c == '\U{000C}' || c == '\r' || c == ' '
    || c == '\U{00A0}' || c == '\U{1680}' || ('\U{2000}' <= c <= '\U{200A}')
    || c == '\U{2028}' || c == '\U{2029}' || c == '\U{202F}' || c == '\U{205F}'
    || c == '\U{3000}' || c == '\U{FEFF}'
  }

  predicate AllWhitespace(s: string) {
    forall i :: 0 <= i < |s| ==> IsJsWhitespace(s[i])
  }

  /** No whitespace at either end. */
  predicate IsTrimmed(s: string) {
    s == [] || (!IsJsWhitespace(s[0]) && !IsJsWhitespace(s[|s| - 1]))
  }

  /** `name.trim()`: strips whitespace from both ends, one character at a
      time (see `TrimTakesMiddle`). */
  function Trim(s: string): (r: string)
    ensures IsTrimmed(r)
    ensures |r| <= |s|
    decreases |s|
  {
    if s == [] then s
    else if IsJsWhitespace(s[0]) then Trim(s[1..])
    else if IsJsWhitespace(s[|s| - 1]) then Trim(s[..|s| - 1])
    else s
  }

  /** The number of whitespace characters `s` starts with. */
  function LeadingWhitespace(s: string): (n: nat)
    ensures n <= |s|
  {
    if s == [] || !IsJsWhitespace(s[0]) then 0 else 1 + LeadingWhitespace(s[1..])
  }

  /** What trimming removes is whitespace, and only from the two ends: the
      result is the slice of `s` after its leading whitespace, and whatever
      follows it is whitespace too. */
  predicate TakesMiddle(s: string, r: string) {
    var lo := LeadingWhitespace(s);
    lo + |r| <= |s| && r == s[lo..lo + |r|]
    && AllWhitespace(s[..lo]) && AllWhitespace(s[lo + |r|..])
  }

  lemma {:induction false} TrimTakesMiddle(s: string)
    ensures TakesMiddle(s, Trim(s))
    decreases |s|
  {
    if s == [] {
    } else if IsJsWhitespace(s[0]) {
      TrimTakesMiddle(s[1..]);
      LeadingStep(s, Trim(s[1..]));
    } else if IsJsWhitespace(s[|s| - 1]) {
      TrimTakesMiddle(s[..|s| - 1]);
      TrailingStep(s, Trim(s[..|s| - 1]));
    }
  }

  /** Dropping one leading whitespace character shifts the middle by one. */
  lemma LeadingStep(s: string, r: string)
    requires s != [] && IsJsWhitespace(s[0])
    requires TakesMiddle(s[1..], r)
    ensures TakesMiddle(s, r)
  {
    var t := s[1..];
    var lo := LeadingWhitespace(t);
    assert LeadingWhitespace(s) == 1 + lo;
    assert s[1 + lo..1 + lo + |r|] == t[lo..lo + |r|];
    assert s[1 + lo + |r|..] == t[lo + |r|..];
    assert s[..1 + lo] == [s[0]] + t[..lo];
  }

  /** With no leading whitespace, dropping a trailing whitespace character
      keeps the middle where it starts. */
  lemma TrailingStep(s: string, r: string)
    requires s != [] && !IsJsWhitespace(s[0]) && IsJsWhitespace(s[|s| - 1])
    requires TakesMiddle(s[..|s| - 1], r)
    ensures TakesMiddle(s, r)
  {
    var t := s[..|s| - 1];
    assert LeadingWhitespace(s) == 0;
    assert LeadingWhitespace(t) == 0;
    assert s[..|r|] == t[..|r|];
    assert s[|r|..] == t[|r|..] + [s[|s| - 1]];
  }

  /** Trimming changes a string exactly when it has whitespace at an end. */
  lemma TrimFixesExactlyTrimmed(s: string)
    ensures Trim(s) == s <==> IsTrimmed(s)
  {
  }

  /** Trimming twice is trimming once. */
  lemma TrimIdempotent(s: string)
    ensures Trim(Trim(s)) == Trim(s)
  {
    TrimFixesExactlyTrimmed(Trim(s));
  }

  /** The form's inputs; `reportsTo` is shown but never submitted. */
  datatype FormState = FormState(name: string, role: Role, email: string, password: string, reportsTo: string)

  const StartingBalance := 10

  /** The four properties the form writes in both branches. */
  function FormFields(form: FormState): (o: Object)
    ensures o.Keys == {"name", "role", "email", "password"}
    ensures o["name"] == JStr(Trim(form.name)) && o["role"] == JStr(RoleName(form.role))
    ensures o["email"] == JStr(form.email) && o["password"] == JStr(form.password)
  {
    map["name" := JStr(Trim(form.name)), "role" := JStr(RoleName(form.role)),
        "email" := JStr(form.email), "password" := JStr(form.password)]
  }

  /** A new user: the current time's decimal text as id, no leaves taken
      and the starting balances, plus the four form fields. */
  function NewUser(fields: Object, nowText: string): (r: Object)
    requires fields.Keys == {"name", "role", "email", "password"}
    ensures r.Keys == {"id", "leaves", "paidLeaveBalance", "unpaidLeaveBalance"} + fields.Keys
    ensures r["id"] == JStr(nowText) && r["leaves"] == JNum(0)
    ensures r["paidLeaveBalance"] == JNum(StartingBalance) && r["unpaidLeaveBalance"] == JNum(StartingBalance)
    ensures forall k :: k in fields ==> r[k] == fields[k]
  {
    map["id" := JStr(nowText), "leaves" := JNum(0),
        "paidLeaveBalance" := JNum(StartingBalance), "unpaidLeaveBalance" := JNum(StartingBalance)] + fields
  }

  /** `handleSubmit`: with a user to edit, that user's record with the form
      fields written over it and every other property kept; otherwise a new
      user. */
  function SubmitRecord(userToEdit: Option<Object>, form: FormState, nowText: string): (r: Object)
    ensures userToEdit.Some? ==>
              r.Keys == userToEdit.value.Keys + FormFields(form).Keys
              && (forall k :: k in userToEdit.value && k !in FormFields(form) ==> r[k] == userToEdit.value[k])
    ensures userToEdit.None? ==> r == NewUser(FormFields(form), nowText)
    ensures forall k :: k in FormFields(form) ==> k in r && r[k] == FormFields(form)[k]
  {
    if userToEdit.Some? then Spread(userToEdit.value, FormFields(form))
    else NewUser(FormFields(form), nowText)
  }

  /** The `reportsTo` input has no effect on what is submitted. */
  lemma SubmitIgnoresReportsTo(userToEdit: Option<Object>, form: FormState, nowText: string, other: string)
    ensures SubmitRecord(userToEdit, form.(reportsTo := other), nowText) == SubmitRecord(userToEdit, form, nowText)
  {
  }

  /** Saving an edit unchanged — a trimmed name and the record's own role,
      email and password — gives back the record itself. */
  lemma UnchangedEditRoundTrip(user: Object, form: FormState, nowText: string)
    requires IsTrimmed(form.name)
    requires Get(user, "name") == JStr(form.name) && Get(user, "role") == JStr(RoleName(form.role))
    requires Get(user, "email") == JStr(form.email) && Get(user, "password") == JStr(form.password)
    ensures SubmitRecord(Some(user), form, nowText) == user
  {
    TrimFixesExactlyTrimmed(form.name);
    var r := SubmitRecord(Some(user), form, nowText);
    assert r.Keys == user.Keys;
    forall k | k in r
      ensures r[k] == user[k]
    {
    }
  }
}

=== FILE: guarded.dfy ===
/** Review and cancel with the status check the dashboards lack: each acts
    only on a request that is still pending on the server. With that guard a
    request's days are credited back at most once, however stale the lists
    the actions are started from. */
module GuardedLifecycle {
  import opened Types
  import opened LeavesService
  import opened Lifecycle
  import opened LifecycleRoundTrips

  /** The request with this id is on the server and pending. */
  predicate PendingOnServer(w: World, id: string) {
    var i := IndexOfLeave(w.leaves, id);
    i.Some? && w.leaves[i.value].status == Pending
  }

  /** The request with this id is on the server and no longer pending. */
  predicate Settled(w: World, id: string) {
    var i := IndexOfLeave(w.leaves, id);
    i.Some? && w.leaves[i.value].status != Pending
  }

  /** `handleCancel`, refused unless the request is pending on the server;
      on a pending request it is the cancel as written. */
  function CancelChecked(w: World, userId: string, userData: Option<User>, leave: Leave,
                         cancelOk: bool, balanceOk: bool): (r: CancelOutcome)
    ensures !PendingOnServer(w, leave.id) ==> r.world == w && r.cancelError == CancelFailedMessage
    ensures PendingOnServer(w, leave.id) ==> r == Cancel(w, userId, userData, leave, cancelOk, balanceOk)
  {
    if PendingOnServer(w, leave.id) then Cancel(w, userId, userData, leave, cancelOk, balanceOk)
    else CancelOutcome(w, CancelFailedMessage)
  }

  /** `handleApproveReject`, refused unless the selected request is pending
      on the server; otherwise it is the review as written. */
  function ReviewChecked(w: World, selected: Option<TeamRequest>, requestId: string, verdict: Verdict,
                         employee: Option<User>, comment: string, statusOk: bool, balanceOk: bool): (r: ReviewOutcome)
    ensures selected.Some? && !PendingOnServer(w, requestId) ==> r.world == w && r.report == ReviewFailed
    ensures selected.None? || PendingOnServer(w, requestId) ==>
              r == Review(w, selected, requestId, verdict, employee, comment, statusOk, balanceOk)
  {
    if selected.Some? && !PendingOnServer(w, requestId) then ReviewOutcome(w, selected, comment, ReviewFailed)
    else Review(w, selected, requestId, verdict, employee, comment, statusOk, balanceOk)
  }

  /** A cancel or a review, as an employee or a manager may start it from
      whatever list they last fetched. */
  datatype Action =
    | CancelBy(userId: string, userData: Option<User>, leave: Leave, cancelOk: bool, balanceOk: bool)
    | ReviewBy(selected: Option<TeamRequest>, verdict: Verdict, employee: Option<User>,
               comment: string, statusOk: bool, balanceOk: bool)

  /** The id a review is sent for: the Approve and Reject buttons pass the
      selected request's own id. */
  function RequestOf(selected: Option<TeamRequest>): string {
    if selected.Some? then selected.value.leave.id else ""
  }

  /** The id of the request an action addresses. */
  function Target(a: Action): string {
    match a
    case CancelBy(_, _, leave, _, _) => leave.id
    case ReviewBy(selected, _, _, _, _, _) => RequestOf(selected)
  }

  /** The backend after a guarded action, and whether its balance PATCH
      (the credit) went through. */
  datatype StepResult = StepResult(world: World, credited: bool)

  function Step(w: World, a: Action): (r: StepResult)
    // without a credit no balance changes
    ensures !r.credited ==> r.world.users == w.users
  {
    match a
    case CancelBy(userId, userData, leave, cancelOk, balanceOk) =>
      var c := CancelChecked(w, userId, userData, leave, cancelOk, balanceOk);
      StepResult(c.world, c.cancelError == "")
    case ReviewBy(selected, verdict, employee, comment, statusOk, balanceOk) =>
      var r := ReviewChecked(w, selected, RequestOf(selected), verdict, employee, comment, statusOk, balanceOk);
      StepResult(r.world, r.report == Reviewed && verdict == Reject)
  }

  /** A status change never puts a request back to pending: replacing the
      leave at `j` by itself with a non-pending status keeps every settled
      request settled. */
  lemma SettledKeptByStatusChange(w: World, w1: World, j: nat, s: Status, u: string, id: string)
    requires j < |w.leaves| && s != Pending && Settled(w, id)
    requires w1.leaves == w.leaves || w1.leaves == w.leaves[j := w.leaves[j].(status := s, userId := u)]
    ensures Settled(w1, id)
  {
    if w1.leaves != w.leaves {
      IndexKeptByUpdate(w.leaves, j, w.leaves[j].(status := s, userId := u), id);
    }
  }

  /** Whatever the action, a request that was settled stays settled. */
  lemma StepKeepsSettled(w: World, a: Action, id: string)
    requires Settled(w, id)
    ensures Settled(Step(w, a).world, id)
  {
    var w1 := Step(w, a).world;
    var target := IndexOfLeave(w.leaves, Target(a));
    if w1.leaves != w.leaves {
      match a
      case CancelBy(userId, userData, leave, cancelOk, balanceOk) =>
        SettledKeptByStatusChange(w, w1, target.value, Cancelled, userId, id);
      case ReviewBy(selected, verdict, employee, comment, statusOk, balanceOk) =>
        var j := target.value;
        assert w.leaves[j].(status := VerdictStatus(verdict)) == w.leaves[j].(status := VerdictStatus(verdict), userId := w.leaves[j].userId);
        SettledKeptByStatusChange(w, w1, j, VerdictStatus(verdict), w.leaves[j].userId, id);
    }
  }

  /** A credit happens only for a request that was pending, and it leaves
      that request settled. */
  lemma StepCreditsOnlyPending(w: World, a: Action)
    ensures Step(w, a).credited ==> PendingOnServer(w, Target(a)) && Settled(Step(w, a).world, Target(a))
  {
    var r := Step(w, a);
    if r.credited {
      var j := IndexOfLeave(w.leaves, Target(a)).value;
      match a
      case CancelBy(userId, userData, leave, cancelOk, balanceOk) =>
        IndexKeptByUpdate(w.leaves, j, w.leaves[j].(status := Cancelled, userId := userId), leave.id);
      case ReviewBy(selected, verdict, employee, comment, statusOk, balanceOk) =>
        IndexKeptByUpdate(w.leaves, j, w.leaves[j].(status := Rejected), RequestOf(selected));
    }
  }

  /** How many of a run of guarded actions credited the request `id`. */
  function Credits(w: World, actions: seq<Action>, id: string): (n: nat)
    decreases |actions|
  {
    if actions == [] then 0
    else
      var s := Step(w, actions[0]);
      (if s.credited && Target(actions[0]) == id then 1 else 0) + Credits(s.world, actions[1..], id)
  }

  /** At most one balance adjustment per request: in any run of guarded
      cancels and reviews, from any lists however stale, a request is
      credited at most once, and never once it is settled. */
  lemma {:induction false} CreditedAtMostOnce(w: World, actions: seq<Action>, id: string)
    ensures Credits(w, actions, id) <= 1
    ensures Settled(w, id) ==> Credits(w, actions, id) == 0
    decreases |actions|
  {
    if actions != [] {
      var s := Step(w, actions[0]);
      StepCreditsOnlyPending(w, actions[0]);
      CreditedAtMostOnce(s.world, actions[1..], id);
      if Settled(w, id) {
        StepKeepsSettled(w, actions[0], id);
      }
    }
  }

  /** A request just created by a successful submit is pending on the
      server, so on the ordinary paths the guarded review and cancel are the
      ones as written. */
  lemma SubmittedIsPending(w: World, v: ApplyView, net: SubmitNetwork)
    requires FreshId(w, net.newId) && Submit(w, v, net).created.Some?
    ensures PendingOnServer(Submit(w, v, net).world, net.newId)
  {
    CreatedIsFound(w, v, net);
  }

  /** The double credit of a stale cancel is refused: after a submit and a
      guarded rejection, a guarded cancel from the stale list fails and
      changes nothing, so the owner is back at the balance before the submit. */
  lemma RejectThenGuardedCancelRefused(w: World, v: ApplyView, net: SubmitNetwork, comment: string)
    requires FreshView(w, v) && FreshId(w, net.newId)
    requires Submit(w, v, net).error.None?
    ensures var s := Submit(w, v, net);
            var l := s.created.value;
            var r := ReviewChecked(s.world, Some(TeamRequest(l, v.userId, "Unknown")), net.newId, Reject,
                                   Some(s.world.users[v.userId]), comment, true, true);
            var c := CancelChecked(r.world, v.userId, Some(r.world.users[v.userId]), l, true, true);
            r.report == Reviewed && c.cancelError == CancelFailedMessage && c.world.users == w.users
  {
    var s := Submit(w, v, net);
    var l := s.created.value;
    SubmittedIsPending(w, v, net);
    SubmitThenRejectRestores(w, v, net, comment);
    CreatedIsFound(w, v, net);
    IndexKeptByUpdate(s.world.leaves, |w.leaves|, l.(status := Rejected), l.id);
    ReplaceLast(w.leaves, l, l.(status := Rejected));
  }

  /** The owner's record as the server holds it at the moment of the credit. */
  function ServerRecord(w: World, id: string): (u: Option<User>)
    ensures u.Some? <==> id in w.users
    ensures u.Some? ==> u.value == w.users[id]
  {
    if id in w.users then Some(w.users[id]) else None
  }

  /** The guarded review with the owner's record read from the server
      instead of the one cached with the row. */
  function ReviewFromServer(w: World, selected: Option<TeamRequest>, verdict: Verdict, comment: string,
                            statusOk: bool, balanceOk: bool): (r: ReviewOutcome)
    ensures selected.Some? && !PendingOnServer(w, RequestOf(selected)) ==> r.world == w && r.report == ReviewFailed
    ensures r.world.users != w.users ==> r.report == Reviewed && verdict == Reject
  {
    var owner := if selected.Some? then selected.value.employeeId else "";
    ReviewChecked(w, selected, RequestOf(selected), verdict, ServerRecord(w, owner), comment, statusOk, balanceOk)
  }

  /** With the record read from the server, a completed rejection adds
      exactly the request's days to the owner's current balance. */
  lemma ServerRejectCreditsExactly(w: World, s: TeamRequest, comment: string, statusOk: bool, balanceOk: bool)
    ensures var r := ReviewFromServer(w, Some(s), Reject, comment, statusOk, balanceOk);
            var t := s.leave.leavePaymentType;
            r.report == Reviewed ==>
              s.employeeId in w.users
              && r.world.users == w.users[s.employeeId := WithUserBalance(w.users[s.employeeId], t,
                                                                           UserBalance(w.users[s.employeeId], t) + s.leave.days)]
  {
    var r := ReviewFromServer(w, Some(s), Reject, comment, statusOk, balanceOk);
    if r.report == Reviewed {
      assert PendingOnServer(w, s.leave.id);
      assert ServerRecord(w, s.employeeId).Some?;
    }
  }

  /** The guarded cancel with the user record read from the server instead
      of the cached one: a cancel then adds exactly the request's days to the
      user's current balance. */
  function CancelFromServer(w: World, userId: string, leave: Leave, cancelOk: bool, balanceOk: bool): (r: CancelOutcome)
    ensures !PendingOnServer(w, leave.id) ==> r.world == w && r.cancelError == CancelFailedMessage
    ensures r.cancelError == "" ==>
              userId in w.users
              && var t := leave.leavePaymentType;
                 var u := w.users[userId];
                 r.world.users == w.users[userId := WithUserBalance(u, t, UserBalance(u, t) + leave.days)]
    ensures r.world.users != w.users ==> r.cancelError == ""
  {
    CancelChecked(w, userId, ServerRecord(w, userId), leave, cancelOk, balanceOk)
  }

  /** The over-credit of a record cached before the submit cannot happen
      when the record is read from the server: submit then a rejection puts
      the owner back exactly where they were. */
  lemma ServerRecordRejectRestores(w: World, v: ApplyView, net: SubmitNetwork, comment: string)
    requires FreshView(w, v) && FreshId(w, net.newId)
    requires Submit(w, v, net).error.None?
    ensures var s := Submit(w, v, net);
            var r := ReviewFromServer(s.world, Some(TeamRequest(s.created.value, v.userId, "Unknown")), Reject,
                                      comment, true, true);
            r.report == Reviewed && r.world.users == w.users
  {
    SubmittedIsPending(w, v, net);
    SubmitThenRejectRestores(w, v, net, comment);
  }
}

=== FILE: json.dfy ===
/** JSON-like values as the request bodies and the mock backend handle them.
    An object is a map from keys to values; key order is not modelled. */
module Json {

  /** `JUndefined` is JavaScript's `undefined`, the value of a missing property. */
  datatype Json =
    | JUndefined
    | JNull
    | JBool(b: bool)
    | JNum(n: int)
    | JStr(s: string)
    | JObj(fields: map<string, Json>)

  type Object = map<string, Json>

  /** Property access `o[k]`: undefined when the key is absent. */
  function Get(o: Object, k: string): (v: Json)
    ensures k in o ==> v == o[k]
    ensures k !in o ==> v == JUndefined
  {
    if k in o then o[k] else JUndefined
  }

  /** The object literal `{...base, ...over}`: every key of either object,
      with `over` winning where both have one. */
  function Spread(base: Object, over: Object): (r: Object)
    ensures r.Keys == base.Keys + over.Keys
    ensures forall k :: k in over ==> r[k] == over[k]
    ensures forall k :: k in base && k !in over ==> r[k] == base[k]
  {
    base + over
  }

  /** The object without key `k`. */
  function Without(o: Object, k: string): (r: Object)
    ensures r.Keys == o.Keys - {k}
    ensures forall j :: j in r ==> r[j] == o[j]
  {
    map j | j in o && j != k :: o[j]
  }

  datatype Method = GET | POST | PATCH | DELETE

  /** An HTTP request as the service layer builds it. */
  datatype Request = Request(verb: Method, url: string, body: Object)
}

=== FILE: leaves_service.dfy ===
/** The leave endpoints the lifecycle uses (src/services/leavesService.ts):
    the three status PATCH builders, the team-request transform, and the
    effect of a status PATCH on a stored leave. */
module LeavesService {
  import opened Types
  import opened Json

  /** The two outcomes a manager may give a request. */
  datatype Verdict = Approve | Reject

  function VerdictStatus(v: Verdict): (s: Status)
    ensures s == Approved || s == Rejected
  {
    if v == Approve then Approved else Rejected
  }

  const LeavesPrefix: string := "leaves/"

  /** The leave id a `leaves/{id}` or `/leaves/{id}` URL addresses; the base
      URL is joined the same way with or without the leading slash. */
  function LeaveTarget(url: string): Option<string> {
    var path := if |url| > 0 && url[0] == '/' then url[1..] else url;
    if |path| >= |LeavesPrefix| && path[..|LeavesPrefix|] == LeavesPrefix then Some(path[|LeavesPrefix|..])
    else None
  }

  lemma LeaveTargetOf(id: string)
    ensures LeaveTarget(LeavesPrefix + id) == Some(id)
    ensures LeaveTarget("/" + LeavesPrefix + id) == Some(id)
  {
    assert (LeavesPrefix + id)[..|LeavesPrefix|] == LeavesPrefix;
    assert (LeavesPrefix + id)[|LeavesPrefix|..] == id;
    assert ("/" + LeavesPrefix + id)[1..] == LeavesPrefix + id;
  }

  /** `cancelLeaveRequest`: a PATCH of `leaves/{id}` whose body sets the
      status to cancelled and carries the caller's user id. */
  function CancelLeaveRequest(id: string, userId: string): (r: Request)
    ensures r.verb == PATCH && LeaveTarget(r.url) == Some(id)
    ensures r.body.Keys == {"status", "userId"}
    ensures r.body["status"] == JStr(StatusName(Cancelled)) && r.body["userId"] == JStr(userId)
  {
    LeaveTargetOf(id);
    Request(PATCH, LeavesPrefix + id, map["status" := JStr("cancelled"), "userId" := JStr(userId)])
  }

  /** `updateLeaveRequest`: a PATCH of `/leaves/{id}` with the verdict's
      status and the processing time. */
  function UpdateLeaveRequest(id: string, v: Verdict, processedAt: string): (r: Request)
    ensures r.verb == PATCH && LeaveTarget(r.url) == Some(id)
    ensures r.body.Keys == {"status", "processedAt"}
    ensures r.body["status"] == JStr(StatusName(VerdictStatus(v)))
    ensures r.body["processedAt"] == JStr(processedAt)
  {
    LeaveTargetOf(id);
    Request(PATCH, "/" + LeavesPrefix + id,
            map["status" := JStr(if v == Approve then "approved" else "rejected"),
                "processedAt" := JStr(processedAt)])
  }

  /** `updateLeaveStatus`: a PATCH of `leaves/{id}` with the verdict's status
      and the manager's comment; an undefined comment is not serialized. */
  function UpdateLeaveStatus(id: string, v: Verdict, managerComment: Option<string>): (r: Request)
    ensures r.verb == PATCH && LeaveTarget(r.url) == Some(id)
    ensures r.body.Keys == {"status"} + (if managerComment.Some? then {"managerComment"} else {})
    ensures r.body["status"] == JStr(StatusName(VerdictStatus(v)))
    ensures managerComment.Some? ==> r.body["managerComment"] == JStr(managerComment.value)
  {
    LeaveTargetOf(id);
    var status := map["status" := JStr(if v == Approve then "approved" else "rejected")];
    Request(PATCH, LeavesPrefix + id,
            if managerComment.Some? then status["managerComment" := JStr(managerComment.value)] else status)
  }

  /** The server's merge of a PATCH body into a stored leave: a known status
      string sets the status and a string `userId` sets the owner; keys that
      are not fields of a leave record are dropped. */
  function PatchLeave(l: Leave, body: Object): (r: Leave)
    ensures r.id == l.id && r.startDate == l.startDate && r.endDate == l.endDate
    ensures r.leavePaymentType == l.leavePaymentType && r.days == l.days
    ensures r.leaveCategory == l.leaveCategory && r.reason == l.reason && r.submittedAt == l.submittedAt
    ensures "status" !in body ==> r.status == l.status
    ensures "userId" !in body ==> r.userId == l.userId
  {
    var l1 := if "status" in body && body["status"].JStr? && ParseStatus(body["status"].s) != Unset
              then l.(status := ParseStatus(body["status"].s)) else l;
    if "userId" in body && body["userId"].JStr? then l1.(userId := body["userId"].s) else l1
  }

  /** Each status PATCH built here moves the leave to the status it names. */
  lemma PatchLeaveSetsStatus(l: Leave, id: string, userId: string, v: Verdict, processedAt: string, comment: Option<string>)
    ensures PatchLeave(l, CancelLeaveRequest(id, userId).body) == l.(status := Cancelled, userId := userId)
    ensures PatchLeave(l, UpdateLeaveRequest(id, v, processedAt).body) == l.(status := VerdictStatus(v))
    ensures PatchLeave(l, UpdateLeaveStatus(id, v, comment).body) == l.(status := VerdictStatus(v))
  {
    ParseStatusName(Cancelled);
    ParseStatusName(VerdictStatus(v));
  }

  const EmployeeKey: string := "employee"

  /** A leave as the team view shows it: every field of the leave plus an
      `employee` object naming the owner by id, with the placeholder name. */
  function WithEmployee(leave: Object): (r: Object)
    ensures r.Keys == leave.Keys + {EmployeeKey}
    ensures forall k :: k in leave && k != EmployeeKey ==> r[k] == leave[k]
    ensures r[EmployeeKey] == JObj(map["id" := Get(leave, "userId"), "name" := JStr("Unknown")])
  {
    Spread(leave, map[EmployeeKey := JObj(map["id" := Get(leave, "userId"), "name" := JStr("Unknown")])])
  }

  /** `getTeamLeaveRequests`' transform: one entry per leave, in order. */
  function TeamTransform(leaves: seq<Object>): (r: seq<Object>)
    ensures |r| == |leaves|
    ensures forall i :: 0 <= i < |leaves| ==> r[i] == WithEmployee(leaves[i])
  {
    seq(|leaves|, i requires 0 <= i < |leaves| => WithEmployee(leaves[i]))
  }

  /** Removing the added `employee` object gives back the leaves the server
      sent, when none of them carried one of its own. */
  lemma TeamTransformRoundTrip(leaves: seq<Object>)
    requires forall i :: 0 <= i < |leaves| ==> EmployeeKey !in leaves[i]
    ensures var r := TeamTransform(leaves);
            forall i :: 0 <= i < |r| ==> Without(r[i], EmployeeKey) == leaves[i]
  {
    var r := TeamTransform(leaves);
    forall i | 0 <= i < |r|
      ensures Without(r[i], EmployeeKey) == leaves[i]
    {
      assert Without(r[i], EmployeeKey).Keys == leaves[i].Keys;
    }
  }
}

=== FILE: ledger.dfy ===
/** The local two-balance ledger of the leave context
    (src/subcomponents/LeaveContext.tsx): both balances start at 20 and
    `applyLeave` debits the chosen one when it covers the request. */
module Ledger {
  import opened Types

  const InitialBalance: int := 20

  const Initial: Balances := Balances(InitialBalance, InitialBalance)

  /** The new balances, and whether the "Insufficient leave balance" alert
      was raised instead of a debit. */
  datatype ApplyResult = ApplyResult(balances: Balances, alerted: bool)

  /** `applyLeave(type, days)`: debits the chosen balance when `days` does
      not exceed it; otherwise alerts and changes nothing. */
  function ApplyLeave(b: Balances, t: PaymentType, days: int): (r: ApplyResult)
    ensures days <= b.Get(t) ==> !r.alerted && r.balances == b.Set(t, b.Get(t) - days)
    ensures days > b.Get(t) ==> r.alerted && r.balances == b
    ensures r.balances.Get(if t == Paid then Unpaid else Paid) == b.Get(if t == Paid then Unpaid else Paid)
  {
    if t == Paid && days <= b.paid then ApplyResult(Balances(b.paid - days, b.unpaid), false)
    else if t == Unpaid && days <= b.unpaid then ApplyResult(Balances(b.paid, b.unpaid - days), false)
    else ApplyResult(b, true)
  }

  /** A non-negative request never drives a non-negative balance below zero,
      and never raises one. */
  lemma ApplyLeaveKeepsBalancesInRange(b: Balances, t: PaymentType, days: int)
    requires days >= 0 && b.paid >= 0 && b.unpaid >= 0
    ensures var r := ApplyLeave(b, t, days).balances;
            0 <= r.paid <= b.paid && 0 <= r.unpaid <= b.unpaid
  {
  }

  datatype Application = Application(t: PaymentType, days: int)

  /** The ledger after a series of `applyLeave` calls. */
  function ApplyAll(b: Balances, requests: seq<Application>): Balances
    decreases |requests|
  {
    if requests == [] then b
    else ApplyAll(ApplyLeave(b, requests[0].t, requests[0].days).balances, requests[1..])
  }

  /** Starting from the initial 20/20, any series of non-negative requests
      keeps both balances between 0 and 20. */
  lemma {:induction false} ApplyAllFromInitial(b: Balances, requests: seq<Application>)
    requires 0 <= b.paid <= InitialBalance && 0 <= b.unpaid <= InitialBalance
    requires forall i :: 0 <= i < |requests| ==> requests[i].days >= 0
    ensures var r := ApplyAll(b, requests);
            0 <= r.paid <= InitialBalance && 0 <= r.unpaid <= InitialBalance
    decreases |requests|
  {
    if requests != [] {
      ApplyLeaveKeepsBalancesInRange(b, requests[0].t, requests[0].days);
      ApplyAllFromInitial(ApplyLeave(b, requests[0].t, requests[0].days).balances, requests[1..]);
    }
  }

  /** The total of days actually debited is what the two balances lost. */
  function Debited(b: Balances, requests: seq<Application>): int
    decreases |requests|
  {
    if requests == [] then 0
    else
      var r := ApplyLeave(b, requests[0].t, requests[0].days);
      (if r.alerted then 0 else requests[0].days) + Debited(r.balances, requests[1..])
  }

  lemma {:induction false} ApplyAllConservesDays(b: Balances, requests: seq<Application>)
    ensures var r := ApplyAll(b, requests);
            r.paid + r.unpaid + Debited(b, requests) == b.paid + b.unpaid
    decreases |requests|
  {
    if requests != [] {
      ApplyAllConservesDays(ApplyLeave(b, requests[0].t, requests[0].days).balances, requests[1..]);
    }
  }
}

=== FILE: legacy_apply.dfy ===
/** The earlier leave form (src/subcomponents/ApplyLeave.tsx): it counts
    calendar days, debits the local ledger of the leave context first, and
    then posts the request to the mock backend, keeping the local debit even
    when the post fails. */
module LegacyApply {
  import opened Types
  import opened Json
  import opened Days
  import Ledger
  import MockServer

  /** `calculateLeaveDays`: 0 while a date is empty, otherwise the inclusive
      number of calendar days: the weekdays and the weekend days together. */
  function CalendarDays(startDate: Option<int>, endDate: Option<int>): (n: int)
    ensures startDate.None? || endDate.None? ==> n == 0
    ensures startDate.Some? && endDate.Some? ==>
              (n > 0 <==> startDate.value <= endDate.value)
              && (startDate.value == endDate.value ==> n == 1)
              && (startDate.value <= endDate.value ==>
                    n == WeekdayCount(startDate.value, endDate.value) + WeekendCount(startDate.value, endDate.value))
  {
    if startDate.None? || endDate.None? then 0
    else
      var n := endDate.value - startDate.value + 1;
      if n > 0 then WeekdaysPlusWeekends(startDate.value, endDate.value); n else n
  }

  /** The calendar count equals the weekday count of the other form exactly
      when the range holds no Saturday or Sunday. */
  lemma {:induction false} CalendarEqualsWeekdaysIffNoWeekend(start: int, end: int)
    requires start <= end
    ensures CalendarDays(Some(start), Some(end)) == WeekdayCount(start, end)
            <==> forall d :: start <= d <= end ==> IsWeekday(d)
    decreases end - start
  {
    if start < end {
      CalendarEqualsWeekdaysIffNoWeekend(start, end - 1);
      if !IsWeekday(end) {
        assert WeekdayCount(start, end) == WeekdayCount(start, end - 1);
      }
    } else {
      assert WeekdayCount(start, end) == (if IsWeekday(start) then 1 else 0);
    }
  }

  datatype LegacyForm = LegacyForm(
    startDate: Option<int>,
    endDate: Option<int>,
    leaveCategory: string,
    leavePaymentType: PaymentType,
    reason: string)

  /** What the form reports after submit. */
  datatype Notice =
    | InvalidDates                                   // "Please select valid dates"
    | Submitted(days: int, t: PaymentType)           // "... submitted successfully! N days deducted ..."
    | AppliedLocally(days: int, t: PaymentType)      // "Leave applied locally ... Could not reach server."
    | Insufficient                                   // only the corrected form below reports this

  /** The ledger, the backend store, whether the ledger alerted, the report
      and the form as the page shows it afterwards. */
  datatype LegacyOutcome = LegacyOutcome(ledger: Balances, store: MockServer.Store, alerted: bool, notice: Notice, form: LegacyForm)

  /** A successful post empties both dates and the reason and keeps the choices. */
  function Cleared(form: LegacyForm): (r: LegacyForm)
    ensures r.startDate.None? && r.endDate.None? && r.reason == ""
    ensures r.leaveCategory == form.leaveCategory && r.leavePaymentType == form.leavePaymentType
  {
    form.(startDate := None, endDate := None, reason := "")
  }

  /** The body the form posts; the owner id is the fixed placeholder the
      form sends, and dates are sent as day numbers. */
  function PostBody(form: LegacyForm, days: int): (body: Object)
    requires form.startDate.Some? && form.endDate.Some?
    ensures body.Keys == {"userId", "startDate", "endDate", "leaveCategory", "leavePaymentType", "reason", "days"}
    ensures body["userId"] == JStr("user123") && body["days"] == JNum(days)
    ensures "id" !in body && "status" !in body
  {
    map["userId" := JStr("user123"),
        "startDate" := JNum(form.startDate.value),
        "endDate" := JNum(form.endDate.value),
        "leaveCategory" := JStr(form.leaveCategory),
        "leavePaymentType" := JStr(PaymentTypeName(form.leavePaymentType)),
        "reason" := JStr(form.reason),
        "days" := JNum(days)]
  }

  /** The post that follows the local step: on success the stamped record is
      appended, the report says the days were deducted and the form is
      cleared; on failure only the report changes. */
  function Deliver(balances: Balances, alerted: bool, store: MockServer.Store, form: LegacyForm, days: int,
                   backendOk: bool, nowMs: int, nowIso: string): (r: LegacyOutcome)
    requires form.startDate.Some? && form.endDate.Some?
    ensures r.ledger == balances && r.alerted == alerted
    ensures backendOk ==> |r.store| == |store| + 1 && r.store[..|store|] == store
                          && r.store[|store|] == MockServer.NewRecord(PostBody(form, days), nowMs, nowIso)
                          && r.notice == Submitted(days, form.leavePaymentType) && r.form == Cleared(form)
    ensures !backendOk ==> r.store == store && r.notice == AppliedLocally(days, form.leavePaymentType) && r.form == form
  {
    if backendOk then
      var posted := MockServer.Post(store, PostBody(form, days), nowMs, nowIso);
      LegacyOutcome(balances, posted.store, alerted, Submitted(days, form.leavePaymentType), Cleared(form))
    else LegacyOutcome(balances, store, alerted, AppliedLocally(days, form.leavePaymentType), form)
  }

  /** `handleSubmit` as written: reject an empty or reversed range, apply the
      debit to the local ledger, then post. The ledger signals an uncovered
      request only by an alert, so the post and the success report follow
      whether or not anything was debited. */
  function Submit(ledger: Balances, store: MockServer.Store, form: LegacyForm,
                  backendOk: bool, nowMs: int, nowIso: string): (r: LegacyOutcome)
    ensures CalendarDays(form.startDate, form.endDate) <= 0 ==>
              r == LegacyOutcome(ledger, store, false, InvalidDates, form)
    ensures CalendarDays(form.startDate, form.endDate) > 0 ==>
              var days := CalendarDays(form.startDate, form.endDate);
              var applied := Ledger.ApplyLeave(ledger, form.leavePaymentType, days);
              // the local debit comes first and is kept whatever the backend does
              r.ledger == applied.balances && r.alerted == applied.alerted
              && (backendOk ==> |r.store| == |store| + 1 && r.store[..|store|] == store
                                && r.store[|store|] == MockServer.NewRecord(PostBody(form, days), nowMs, nowIso)
                                && r.notice == Submitted(days, form.leavePaymentType) && r.form == Cleared(form))
              && (!backendOk ==> r.store == store && r.notice == AppliedLocally(days, form.leavePaymentType)
                                 && r.form == form)
  {
    var days := CalendarDays(form.startDate, form.endDate);
    if days <= 0 then LegacyOutcome(ledger, store, false, InvalidDates, form)
    else
      var applied := Ledger.ApplyLeave(ledger, form.leavePaymentType, days);
      Deliver(applied.balances, applied.alerted, store, form, days, backendOk, nowMs, nowIso)
  }

  /** The report "N days deducted from <type> leave" is true of the ledger. */
  predicate NoticeHolds(before: Balances, r: LegacyOutcome) {
    (r.notice.Submitted? || r.notice.AppliedLocally?) ==>
      r.ledger == before.Set(r.notice.t, before.Get(r.notice.t) - r.notice.days)
  }

  /** As written, a request larger than its balance is still posted as a
      pending request and reported as deducted, while the ledger is untouched. */
  lemma UncoveredRequestIsPosted(nowMs: int, nowIso: string, monday: int)
    ensures var form := LegacyForm(Some(monday), Some(monday + 24), "Sick", Paid, "");
            var r := Submit(Ledger.Initial, [], form, true, nowMs, nowIso);
            r.alerted && r.ledger == Ledger.Initial
            && |r.store| == 1 && r.store[0]["status"] == JStr("pending")
            && r.notice == Submitted(25, Paid)
            && !NoticeHolds(Ledger.Initial, r)
  {
    var form := LegacyForm(Some(monday), Some(monday + 24), "Sick", Paid, "");
    assert CalendarDays(form.startDate, form.endDate) == 25;
    var applied := Ledger.ApplyLeave(Ledger.Initial, Paid, 25);
    assert applied.alerted && applied.balances == Ledger.Initial;
    var r := Submit(Ledger.Initial, [], form, true, nowMs, nowIso);
    assert r.store[0] == MockServer.NewRecord(PostBody(form, 25), nowMs, nowIso);
    assert Ledger.Initial.Set(Paid, Ledger.Initial.Get(Paid) - 25) != Ledger.Initial;
  }

  /** The evidently intended form: an uncovered request is reported as
      insufficient and neither debited nor posted. */
  function SubmitChecked(ledger: Balances, store: MockServer.Store, form: LegacyForm,
                         backendOk: bool, nowMs: int, nowIso: string): (r: LegacyOutcome)
    ensures NoticeHolds(ledger, r)
    ensures |r.store| > |store| ==>
              var days := CalendarDays(form.startDate, form.endDate);
              days > 0 && r.ledger == ledger.Set(form.leavePaymentType, ledger.Get(form.leavePaymentType) - days)
    ensures r.notice == Insufficient <==>
              0 < CalendarDays(form.startDate, form.endDate) && CalendarDays(form.startDate, form.endDate) > ledger.Get(form.leavePaymentType)
    ensures r.notice == Insufficient ==> r.ledger == ledger && r.store == store
  {
    var days := CalendarDays(form.startDate, form.endDate);
    var t := form.leavePaymentType;
    if days <= 0 then LegacyOutcome(ledger, store, false, InvalidDates, form)
    else
      var applied := Ledger.ApplyLeave(ledger, t, days);
      if applied.alerted then LegacyOutcome(ledger, store, true, Insufficient, form)
      else
        var r := Deliver(applied.balances, false, store, form, days, backendOk, nowMs, nowIso);
        DebitNoticeHolds(ledger, t, days, r);
        r
  }

  /** A debit of exactly the reported days makes the report true. */
  lemma DebitNoticeHolds(before: Balances, t: PaymentType, days: int, r: LegacyOutcome)
    requires r.notice == Submitted(days, t) || r.notice == AppliedLocally(days, t)
    requires r.ledger == before.Set(t, before.Get(t) - days)
    ensures NoticeHolds(before, r)
  {
  }

  /** Where the ledger covers the request, the corrected form behaves exactly
      as the form as written. */
  lemma SubmitCheckedAgreesWhenCovered(ledger: Balances, store: MockServer.Store, form: LegacyForm,
                                       backendOk: bool, nowMs: int, nowIso: string)
    requires CalendarDays(form.startDate, form.endDate) <= ledger.Get(form.leavePaymentType)
    ensures SubmitChecked(ledger, store, form, backendOk, nowMs, nowIso)
            == Submit(ledger, store, form, backendOk, nowMs, nowIso)
  {
  }
}

=== FILE: lifecycle.dfy ===
/** The request lifecycle as the dashboards drive it: an employee submits
    (create, then debit), a manager approves or rejects (status, then credit on
    reject), an employee cancels (status, then credit), and the list views
    that decide which requests are offered for these actions.
    Each network call is a step on the backend state that either succeeds or
    fails; a failed call leaves that state as it was. */
module Lifecycle {
  import opened Types
  import opened Json
  import opened Seqs
  import opened Days
  import opened Validation
  import opened UserService
  import opened LeavesService

  /** The backend's users and leave requests. */
  datatype World = World(users: map<string, User>, leaves: seq<Leave>)

  /** A PATCH of `/users/{id}`: fails on a network error or an unknown id. */
  function PatchUserRemote(w: World, req: Request, ok: bool): (r: Option<World>)
    ensures r.None? <==> !ok || UserTarget(req.url).None? || UserTarget(req.url).value !in w.users
    ensures r.Some? ==> var id := UserTarget(req.url).value;
              r.value == World(w.users[id := PatchUser(w.users[id], req.body)], w.leaves)
  {
    var target := UserTarget(req.url);
    if !ok || target.None? || target.value !in w.users then None
    else Some(w.(users := w.users[target.value := PatchUser(w.users[target.value], req.body)]))
  }

  /** Position of the first leave with the given id. */
  function IndexOfLeave(leaves: seq<Leave>, id: string): (r: Option<nat>)
    ensures r.None? <==> forall j :: 0 <= j < |leaves| ==> leaves[j].id != id
    ensures r.Some? ==> r.value < |leaves| && leaves[r.value].id == id
                        && forall j :: 0 <= j < r.value ==> leaves[j].id != id
  {
    if leaves == [] then None
    else if leaves[0].id == id then Some(0)
    else
      var r := IndexOfLeave(leaves[1..], id);
      assert forall j :: 1 <= j < |leaves| ==> leaves[j] == leaves[1..][j - 1];
      if r.Some? then Some(r.value + 1) else None
  }

  /** Replacing a leave by one with the same id moves no id: every lookup
      finds the position it found before. */
  lemma IndexKeptByUpdate(leaves: seq<Leave>, j: nat, x: Leave, id: string)
    requires j < |leaves| && x.id == leaves[j].id
    ensures IndexOfLeave(leaves[j := x], id) == IndexOfLeave(leaves, id)
  {
    var after := leaves[j := x];
    assert forall k :: 0 <= k < |leaves| ==> after[k].id == leaves[k].id;
  }

  /** A PATCH of `leaves/{id}`: merges the body into the first leave with that
      id; fails on a network error or an unknown id. */
  function PatchLeaveRemote(w: World, req: Request, ok: bool): (r: Option<World>)
    ensures r.None? <==> !ok || LeaveTarget(req.url).None? || IndexOfLeave(w.leaves, LeaveTarget(req.url).value).None?
    ensures r.Some? ==> var i := IndexOfLeave(w.leaves, LeaveTarget(req.url).value).value;
              r.value == World(w.users, w.leaves[i := PatchLeave(w.leaves[i], req.body)])
  {
    var target := LeaveTarget(req.url);
    if !ok || target.None? then None
    else
      var i := IndexOfLeave(w.leaves, target.value);
      if i.None? then None
      else Some(w.(leaves := w.leaves[i.value := PatchLeave(w.leaves[i.value], req.body)]))
  }

  /** The POST that creates a request; the server appends it. */
  function CreateLeaveRemote(w: World, leave: Leave, ok: bool): (r: Option<World>)
    ensures r.None? <==> !ok
    ensures r.Some? ==> r.value == World(w.users, w.leaves + [leave])
  {
    if ok then Some(w.(leaves := w.leaves + [leave])) else None
  }

  // ---------------------------------------------------------------------
  // Employee: submit a new request

  /** What the leave form knows when the user submits: the signed-in id (""
      when none), the fetched user record, the form, the user's requests as
      last fetched, the balances in the form's state, and the balance flag as
      the previous render left it. */
  datatype ApplyView = ApplyView(
    userId: string,
    userData: Option<User>,
    form: ApplyForm,
    leaveData: seq<Leave>,
    balances: Balances,
    priorBalanceError: bool)

  /** The outcomes of the two calls submit makes, and what the server assigns. */
  datatype SubmitNetwork = SubmitNetwork(createOk: bool, newId: string, now: string, balanceOk: bool)

  datatype SubmitOutcome = SubmitOutcome(
    world: World,
    balances: Balances,
    error: Option<ApplyError>,
    created: Option<Leave>)

  /** The request record built from the form: pending, with the counted days. */
  function NewRequest(v: ApplyView, days: int, id: string, now: string): (l: Leave)
    requires HasBothDates(v.form)
    ensures l.status == Pending && l.days == days && l.userId == v.userId && l.id == id
    ensures l.startDate == v.form.startDate.value && l.endDate == v.form.endDate.value
    ensures l.leavePaymentType == v.form.leavePaymentType && l.leaveCategory == v.form.leaveCategory
    ensures l.reason == v.form.reason && l.submittedAt == now
  {
    Leave(id, v.userId, v.form.startDate.value, v.form.endDate.value, v.form.leaveCategory,
          v.form.leavePaymentType, v.form.reason, days, now, Pending)
  }

  /** The validation the form applies, as the effects compute it from the view. */
  function ViewCheck(v: ApplyView): Option<ApplyError> {
    var days := DaysRequested(v.form);
    var t := v.form.leavePaymentType;
    CheckSubmit(v.userId, v.userData, days,
                BalanceErrorEffect(v.priorBalanceError, days, t, v.balances),
                OverlapFlag(v.form, v.leaveData), t)
  }

  /** `handleSubmit` of the employee leave form. */
  function Submit(w: World, v: ApplyView, net: SubmitNetwork): (r: SubmitOutcome)
    // a failed check changes nothing and creates nothing
    ensures r.error.Some? && r.error != Some(SubmitFailed) ==>
              r.world == w && r.balances == v.balances && r.created.None?
    // nothing is created or debited unless every check passed
    ensures r.created.Some? ==>
              v.userId != "" && HasManager(v.userData) && !OverlapFlag(v.form, v.leaveData)
              && 0 < DaysRequested(v.form) <= v.balances.Get(v.form.leavePaymentType)
    // the created request is pending and carries the weekday count of its range
    ensures r.created.Some? ==> var l := r.created.value;
              l.status == Pending && l.userId == v.userId && l.id == net.newId
              && l.days == |WeekdaySet(l.startDate, l.endDate)| && l.days == DaysRequested(v.form)
    // no create, no change
    ensures r.created.None? ==> r.world == w && r.balances == v.balances
    ensures !net.createOk ==> r.created.None?
    // a create whose debit failed leaves the balances as they were
    ensures r.created.Some? && r.error.Some? ==>
              r.error == Some(SubmitFailed) && r.balances == v.balances
              && r.world == World(w.users, w.leaves + [r.created.value])
    // success debits exactly the chosen balance, locally and on the server
    ensures r.error.None? ==> r.created.Some? && v.userId in w.users
    ensures r.error.None? ==>
              var t := v.form.leavePaymentType;
              var debited := v.balances.Get(t) - r.created.value.days;
              r.balances == v.balances.Set(t, debited)
              && r.world.leaves == w.leaves + [r.created.value]
              && r.world.users == w.users[v.userId := WithUserBalance(w.users[v.userId], t, debited)]
  {
    var days := DaysRequested(v.form);
    var t := v.form.leavePaymentType;
    var check := ViewCheck(v);
    if check.Some? then SubmitOutcome(w, v.balances, check, None)
    else
      var leave := NewRequest(v, days, net.newId, net.now);
      var created := CreateLeaveRemote(w, leave, net.createOk);
      if created.None? then SubmitOutcome(w, v.balances, Some(SubmitFailed), None)
      else
        var debited := v.balances.Get(t) - days;
        var body := UpdateLeaveBalance(v.userId, t, days, debited);
        var patched := PatchUserRemote(created.value, body, net.balanceOk);
        if patched.None? then SubmitOutcome(created.value, v.balances, Some(SubmitFailed), Some(leave))
        else
          PatchUserAppliesBalance(w.users[v.userId], t, days, debited);
          SubmitOutcome(patched.value, v.balances.Set(t, debited), None, Some(leave))
  }

  /** A view is fresh when its user record and balances are the server's and
      its request list is the user's requests on the server. */
  predicate FreshView(w: World, v: ApplyView) {
    && v.userId in w.users
    && v.userData == Some(w.users[v.userId])
    && v.balances == BalancesOf(w.users[v.userId])
    && v.leaveData == Filter(w.leaves, (l: Leave) => l.userId == v.userId)
  }

  predicate NonNegativeBalances(w: World) {
    forall id :: id in w.users ==> w.users[id].paidLeaveBalance >= 0 && w.users[id].unpaidLeaveBalance >= 0
  }

  /** From a fresh view, submit never drives a balance below zero. */
  lemma SubmitKeepsBalancesNonNegative(w: World, v: ApplyView, net: SubmitNetwork)
    requires FreshView(w, v) && NonNegativeBalances(w)
    ensures NonNegativeBalances(Submit(w, v, net).world)
  {
    var r := Submit(w, v, net);
    if r.error.None? {
      var t := v.form.leavePaymentType;
      var u := w.users[v.userId];
      var u' := WithUserBalance(u, t, v.balances.Get(t) - r.created.value.days);
      assert UserBalance(u', Paid) >= 0 && UserBalance(u', Unpaid) >= 0;
    }
  }

  /** Overlap scenario: with a pending Monday-to-Friday request on file, a
      Tuesday-to-Thursday request is refused as overlapping, even when the
      balance covers it, and nothing changes. */
  lemma OverlappingWeekRefused(w: World, v: ApplyView, net: SubmitNetwork, monday: int, existing: Leave)
    requires Weekday(monday) == 1
    requires existing.status == Pending && existing.startDate == monday && existing.endDate == monday + 4
    requires existing in v.leaveData
    requires v.userId != "" && HasManager(v.userData)
    requires v.form.startDate == Some(monday + 1) && v.form.endDate == Some(monday + 3)
    requires v.form.leavePaymentType == Unpaid && v.balances.unpaid >= 3
    ensures Submit(w, v, net).error == Some(OverlapsExisting)
    ensures Submit(w, v, net).world == w && Submit(w, v, net).balances == v.balances
  {
    WorkWeekCounts(monday);
    var i :| 0 <= i < |v.leaveData| && v.leaveData[i] == existing;
    assert OverlapFlag(v.form, v.leaveData);
  }

  // ---------------------------------------------------------------------
  // Manager: approve or reject

  /** A row of the team view: the leave and its owner's id and name. */
  datatype TeamRequest = TeamRequest(leave: Leave, employeeId: string, employeeName: string)

  datatype ReviewReport =
    | Reviewed
    | ReviewedWithoutBalance   // rejected, but the owner's record was not found
    | NoRequestSelected
    | ReviewFailed

  datatype ReviewOutcome = ReviewOutcome(
    world: World,
    selected: Option<TeamRequest>,
    comment: string,
    report: ReviewReport)

  /** The status PATCH of a review: the addressed request takes the
      verdict's status and nothing else changes. */
  function PatchVerdict(w: World, requestId: string, verdict: Verdict, comment: string, ok: bool): (r: Option<World>)
    ensures r.None? <==> !ok || IndexOfLeave(w.leaves, requestId).None?
    ensures r.Some? ==> var i := IndexOfLeave(w.leaves, requestId).value;
              r.value == World(w.users, w.leaves[i := w.leaves[i].(status := VerdictStatus(verdict))])
  {
    LeaveTargetOf(requestId);
    var patched := PatchLeaveRemote(w, UpdateLeaveStatus(requestId, verdict, Some(comment)), ok);
    if patched.Some? then
      var i := IndexOfLeave(w.leaves, requestId).value;
      PatchLeaveSetsStatus(w.leaves[i], requestId, "", verdict, "", Some(comment));
      patched
    else patched
  }

  /** A balance PATCH that sets the given user's balance of type `t` to
      `base + days`: nothing else on the server changes. */
  function CreditBalance(w: World, userId: string, t: PaymentType, days: int, base: int, ok: bool): (r: Option<World>)
    ensures r.None? <==> !ok || userId !in w.users
    ensures r.Some? ==>
              r.value == World(w.users[userId := WithUserBalance(w.users[userId], t, base + days)], w.leaves)
  {
    var credited := PatchUserRemote(w, UpdateLeaveBalance(userId, t, days, base + days), ok);
    if credited.Some? then
      PatchUserAppliesBalance(w.users[userId], t, days, base + days);
      credited
    else credited
  }

  /** The balance PATCH of a rejection: the owner's balance of the request's
      type becomes the one read from `employee` plus the request's days. */
  function CreditOwner(w: World, s: TeamRequest, employee: User, ok: bool): (r: Option<World>)
    ensures r.None? <==> !ok || s.employeeId !in w.users
    ensures r.Some? ==> var t := s.leave.leavePaymentType;
              r.value == World(w.users[s.employeeId :=
                WithUserBalance(w.users[s.employeeId], t, UserBalance(employee, t) + s.leave.days)], w.leaves)
  {
    var t := s.leave.leavePaymentType;
    CreditBalance(w, s.employeeId, t, s.leave.days, UserBalance(employee, t), ok)
  }

  /** `handleApproveReject`: patch the status, then on reject credit the
      request's days to the balance it drew on, as read from `employee`. */
  function Review(w: World, selected: Option<TeamRequest>, requestId: string, verdict: Verdict,
                  employee: Option<User>, comment: string, statusOk: bool, balanceOk: bool): (r: ReviewOutcome)
    ensures selected.None? ==> r.world == w && r.report == NoRequestSelected
    // the review fails exactly when one of its calls fails
    ensures r.report == ReviewFailed <==>
              selected.Some? && (!statusOk || IndexOfLeave(w.leaves, requestId).None? ||
                (verdict == Reject && employee.Some? && (!balanceOk || selected.value.employeeId !in w.users)))
    // the status is patched first; when that fails nothing changes
    ensures !statusOk ==> r.world == w && r.report != Reviewed && r.report != ReviewedWithoutBalance
    ensures r.world != w ==> selected.Some? && statusOk
    // the only change to the requests is the addressed one taking the verdict's status
    ensures r.world.leaves == w.leaves
            || var i := IndexOfLeave(w.leaves, requestId);
               i.Some? && r.world.leaves == w.leaves[i.value := w.leaves[i.value].(status := VerdictStatus(verdict))]
    ensures r.report == ReviewFailed ==> r.world.users == w.users
    // approving never touches a balance
    ensures verdict == Approve ==> r.world.users == w.users
    // a rejection whose owner is unknown still changes the status, but no balance
    ensures r.report == ReviewedWithoutBalance <==>
              selected.Some? && verdict == Reject && employee.None?
              && statusOk && IndexOfLeave(w.leaves, requestId).Some?
    ensures r.report == ReviewedWithoutBalance ==> r.world.users == w.users
    // a completed review moves the addressed request to the verdict's status
    ensures (r.report == Reviewed || r.report == ReviewedWithoutBalance) ==>
              var i := IndexOfLeave(w.leaves, requestId);
              i.Some? && r.world.leaves == w.leaves[i.value := w.leaves[i.value].(status := VerdictStatus(verdict))]
              && r.selected.None? && r.comment == ""
    // a completed rejection credits exactly the request's balance type of the owner
    ensures r.report == Reviewed && verdict == Reject ==>
              var s := selected.value;
              var t := s.leave.leavePaymentType;
              employee.Some? && s.employeeId in w.users
              && r.world.users == w.users[s.employeeId :=
                   WithUserBalance(w.users[s.employeeId], t, UserBalance(employee.value, t) + s.leave.days)]
  {
    if selected.None? then ReviewOutcome(w, selected, comment, NoRequestSelected)
    else
      var patched := PatchVerdict(w, requestId, verdict, comment, statusOk);
      if patched.None? then ReviewOutcome(w, selected, comment, ReviewFailed)
      else if verdict == Reject && employee.Some? then
        var credited := CreditOwner(patched.value, selected.value, employee.value, balanceOk);
        if credited.None? then ReviewOutcome(patched.value, selected, comment, ReviewFailed)
        else ReviewOutcome(credited.value, None, "", Reviewed)
      else if verdict == Reject then ReviewOutcome(patched.value, None, "", ReviewedWithoutBalance)
      else ReviewOutcome(patched.value, None, "", Reviewed)
  }

  predicate OffersReview(row: TeamRequest) {
    row.leave.status == Pending
  }

  /** The rows that show the Review action: exactly the pending ones. */
  function ReviewTargets(rows: seq<TeamRequest>): (r: seq<TeamRequest>)
    ensures forall row :: row in r <==> row in rows && row.leave.status == Pending
  {
    Filter(rows, OffersReview)
  }

  // ---------------------------------------------------------------------
  // Employee: the pending list, the history list, and cancel

  predicate IsPending(l: Leave) {
    l.status == Pending
  }

  /** `request.status && request.status !== 'pending'`. */
  predicate InHistory(l: Leave) {
    l.status != Unset && l.status != Pending
  }

  /** The status view: the user's pending requests, in their original order. */
  function PendingRequests(leaves: seq<Leave>): (r: seq<Leave>)
    ensures |r| <= |leaves|
    ensures forall l :: l in r <==> l in leaves && l.status == Pending
  {
    Filter(leaves, IsPending)
  }

  /** The history view: every request with a status other than pending. */
  function LeaveHistory(leaves: seq<Leave>): (r: seq<Leave>)
    ensures |r| <= |leaves|
    ensures forall l :: l in r <==> l in leaves && l.status != Unset && l.status != Pending
  {
    Filter(leaves, InHistory)
  }

  /** Both views keep order: each distributes over concatenation. */
  lemma ViewsKeepOrder(a: seq<Leave>, b: seq<Leave>)
    ensures PendingRequests(a + b) == PendingRequests(a) + PendingRequests(b)
    ensures LeaveHistory(a + b) == LeaveHistory(a) + LeaveHistory(b)
  {
    FilterConcat(a, b, IsPending);
    FilterConcat(a, b, InHistory);
  }

  /** When every request has a status, the pending view and the history view
      split the requests between them, each request in exactly one. */
  lemma PendingAndHistoryPartition(leaves: seq<Leave>)
    requires forall i :: 0 <= i < |leaves| ==> leaves[i].status != Unset
    ensures |PendingRequests(leaves)| + |LeaveHistory(leaves)| == |leaves|
    ensures multiset(PendingRequests(leaves)) + multiset(LeaveHistory(leaves)) == multiset(leaves)
  {
    forall i | 0 <= i < |leaves| ensures InHistory(leaves[i]) == !IsPending(leaves[i]) {}
    FilterPartition(leaves, IsPending, InHistory);
  }

  datatype CancelOutcome = CancelOutcome(world: World, cancelError: string)

  const CancelFailedMessage: string := "Failed to cancel leave request. Please try again."

  /** The status PATCH of a cancel: the addressed request becomes cancelled
      and takes the caller's id as its owner; nothing else changes. */
  function PatchCancelled(w: World, leaveId: string, userId: string, ok: bool): (r: Option<World>)
    ensures r.None? <==> !ok || IndexOfLeave(w.leaves, leaveId).None?
    ensures r.Some? ==> var i := IndexOfLeave(w.leaves, leaveId).value;
              r.value == World(w.users, w.leaves[i := w.leaves[i].(status := Cancelled, userId := userId)])
  {
    LeaveTargetOf(leaveId);
    var patched := PatchLeaveRemote(w, CancelLeaveRequest(leaveId, userId), ok);
    if patched.Some? then
      var i := IndexOfLeave(w.leaves, leaveId).value;
      PatchLeaveSetsStatus(w.leaves[i], leaveId, userId, Approve, "", None);
      patched
    else patched
  }

  /** `handleCancel`: patch the status to cancelled, then credit the request's
      days to the balance it drew on, as read from the fetched user record. */
  function Cancel(w: World, userId: string, userData: Option<User>, leave: Leave,
                  cancelOk: bool, balanceOk: bool): (r: CancelOutcome)
    ensures r.cancelError == "" || r.cancelError == CancelFailedMessage
    // the cancel succeeds exactly when both calls succeed
    ensures r.cancelError == "" <==>
              cancelOk && IndexOfLeave(w.leaves, leave.id).Some? && userData.Some? && balanceOk && userId in w.users
    // the status is patched first; when that fails nothing changes
    ensures !cancelOk || IndexOfLeave(w.leaves, leave.id).None? ==>
              r.world == w && r.cancelError == CancelFailedMessage
    // without the user record the cancel stands but no credit is made
    ensures userData.None? ==> r.world.users == w.users && r.cancelError == CancelFailedMessage
    ensures r.world.users != w.users ==> userData.Some? && r.cancelError == ""
    // the only change to the requests is the addressed one becoming cancelled
    ensures r.world.leaves == w.leaves
            || var i := IndexOfLeave(w.leaves, leave.id);
               i.Some? && r.world.leaves == w.leaves[i.value := w.leaves[i.value].(status := Cancelled, userId := userId)]
    // success: the request is cancelled and exactly its balance type is credited
    ensures r.cancelError == "" ==>
              var i := IndexOfLeave(w.leaves, leave.id);
              var t := leave.leavePaymentType;
              i.Some? && userData.Some? && userId in w.users
              && r.world.leaves == w.leaves[i.value := w.leaves[i.value].(status := Cancelled, userId := userId)]
              && r.world.users == w.users[userId :=
                   WithUserBalance(w.users[userId], t, UserBalance(userData.value, t) + leave.days)]
  {
    var cancelled := PatchCancelled(w, leave.id, userId, cancelOk);
    if cancelled.None? then CancelOutcome(w, CancelFailedMessage)
    else if userData.None? then CancelOutcome(cancelled.value, CancelFailedMessage)
    else
      var t := leave.leavePaymentType;
      var credited := CreditBalance(cancelled.value, userId, t, leave.days, UserBalance(userData.value, t), balanceOk);
      if credited.None? then CancelOutcome(cancelled.value, CancelFailedMessage)
      else CancelOutcome(credited.value, "")
  }
}

/** Properties of whole request lifecycles: submit followed by a review or a
    cancel, run against a view that is fresh with respect to the backend. */
module LifecycleRoundTrips {
  import opened Types
  import opened Days
  import opened Validation
  import opened LeavesService
  import opened Seqs
  import opened Lifecycle

  /** The server assigns ids no existing request carries. */
  predicate FreshId(w: World, id: string) {
    forall j :: 0 <= j < |w.leaves| ==> w.leaves[j].id != id
  }

  /** After a successful submit the new request is the last one, and the
      only one with its id. */
  lemma CreatedIsFound(w: World, v: ApplyView, net: SubmitNetwork)
    requires FreshId(w, net.newId) && Submit(w, v, net).created.Some?
    ensures var s := Submit(w, v, net);
            |s.world.leaves| == |w.leaves| + 1
            && IndexOfLeave(s.world.leaves, net.newId) == Some(|w.leaves|)
            && s.world.leaves[|w.leaves|] == s.created.value
  {
    var s := Submit(w, v, net);
    var i := IndexOfLeave(s.world.leaves, net.newId);
    assert s.world.leaves[|w.leaves|].id == net.newId;
    assert forall j :: 0 <= j < |w.leaves| ==> s.world.leaves[j] == w.leaves[j];
  }

  /** A successful submit from a fresh view debits the owner's record on the
      server by the request's days. */
  lemma SubmitDebitsOwner(w: World, v: ApplyView, net: SubmitNetwork)
    requires FreshView(w, v) && Submit(w, v, net).error.None?
    ensures var s := Submit(w, v, net);
            var u := w.users[v.userId];
            var t := v.form.leavePaymentType;
            s.world.users == w.users[v.userId := WithUserBalance(u, t, UserBalance(u, t) - s.created.value.days)]
  {
  }

  /** A rejection read against the owner's current record, with both calls
      succeeding, credits that record and rejects the request. */
  lemma RejectCreditsOwner(w: World, row: TeamRequest, id: string, comment: string)
    requires IndexOfLeave(w.leaves, id).Some? && row.employeeId in w.users
    ensures var r := Review(w, Some(row), id, Reject, Some(w.users[row.employeeId]), comment, true, true);
            var i := IndexOfLeave(w.leaves, id).value;
            var u := w.users[row.employeeId];
            var t := row.leave.leavePaymentType;
            r.report == Reviewed
            && r.world.users == w.users[row.employeeId := WithUserBalance(u, t, UserBalance(u, t) + row.leave.days)]
            && r.world.leaves == w.leaves[i := w.leaves[i].(status := Rejected)]
  {
  }

  /** Submit, then the manager rejects: the owner's record is back to what it
      was before the submit and the request is rejected. */
  lemma SubmitThenRejectRestores(w: World, v: ApplyView, net: SubmitNetwork, comment: string)
    requires FreshView(w, v) && FreshId(w, net.newId)
    requires Submit(w, v, net).error.None?
    ensures var s := Submit(w, v, net);
            var row := TeamRequest(s.created.value, v.userId, "Unknown");
            var r := Review(s.world, Some(row), net.newId, Reject, Some(s.world.users[v.userId]), comment, true, true);
            r.report == Reviewed
            && r.world.users == w.users
            && r.world.leaves == w.leaves + [s.created.value.(status := Rejected)]
  {
    RejectRestoresUsers(w, v, net, comment);
    RejectMarksRequest(w, v, net, comment);
  }

  lemma RejectRestoresUsers(w: World, v: ApplyView, net: SubmitNetwork, comment: string)
    requires FreshView(w, v) && FreshId(w, net.newId)
    requires Submit(w, v, net).error.None?
    ensures var s := Submit(w, v, net);
            var row := TeamRequest(s.created.value, v.userId, "Unknown");
            var r := Review(s.world, Some(row), net.newId, Reject, Some(s.world.users[v.userId]), comment, true, true);
            r.report == Reviewed && r.world.users == w.users
  {
    var s := Submit(w, v, net);
    CreatedIsFound(w, v, net);
    SubmitDebitsOwner(w, v, net);
    RejectOfDebitedRestores(w.users, s.world, s.created.value, v.userId, comment);
  }

  /** A rejection, with both calls succeeding, of a request whose days were
      debited from its owner gives back the owner map from before the debit. */
  lemma RejectOfDebitedRestores(users: map<string, User>, sw: World, l: Leave, id: string, comment: string)
    requires id in users && IndexOfLeave(sw.leaves, l.id).Some?
    requires var t := l.leavePaymentType;
             sw.users == users[id := WithUserBalance(users[id], t, UserBalance(users[id], t) - l.days)]
    ensures var r := Review(sw, Some(TeamRequest(l, id, "Unknown")), l.id, Reject, Some(sw.users[id]), comment, true, true);
            r.report == Reviewed && r.world.users == users
  {
    RejectCreditsOwner(sw, TeamRequest(l, id, "Unknown"), l.id, comment);
    CreditAfterDebitRestores(users, id, l.leavePaymentType, l.days);
  }

  lemma RejectMarksRequest(w: World, v: ApplyView, net: SubmitNetwork, comment: string)
    requires FreshView(w, v) && FreshId(w, net.newId)
    requires Submit(w, v, net).error.None?
    ensures var s := Submit(w, v, net);
            var row := TeamRequest(s.created.value, v.userId, "Unknown");
            var r := Review(s.world, Some(row), net.newId, Reject, Some(s.world.users[v.userId]), comment, true, true);
            r.world.leaves == w.leaves + [s.created.value.(status := Rejected)]
  {
    var s := Submit(w, v, net);
    CreatedIsFound(w, v, net);
    var l := s.created.value;
    var row := TeamRequest(l, v.userId, "Unknown");
    RejectCreditsOwner(s.world, row, net.newId, comment);
    ReplaceLast(w.leaves, l, l.(status := Rejected));
  }

  /** Crediting a user's balance by what was debited from it, read from the
      debited record, gives back the original user map. */
  lemma CreditAfterDebitRestores(users: map<string, User>, id: string, t: PaymentType, d: int)
    requires id in users
    ensures var debited := users[id := WithUserBalance(users[id], t, UserBalance(users[id], t) - d)];
            debited[id := WithUserBalance(debited[id], t, UserBalance(debited[id], t) + d)] == users
  {
    CreditUndoesDebit(users[id], t, d);
    var u := users[id];
    var debited := users[id := WithUserBalance(u, t, UserBalance(u, t) - d)];
    assert debited[id := u] == users;
  }

  lemma ReplaceLast<T>(a: seq<T>, x: T, y: T)
    ensures (a + [x])[|a| := y] == a + [y]
  {
  }

  /** Submit, then the employee cancels: the record is restored in the same way. */
  lemma SubmitThenCancelRestores(w: World, v: ApplyView, net: SubmitNetwork)
    requires FreshView(w, v) && FreshId(w, net.newId)
    requires Submit(w, v, net).error.None?
    ensures var s := Submit(w, v, net);
            var c := Cancel(s.world, v.userId, Some(s.world.users[v.userId]), s.created.value, true, true);
            c.cancelError == ""
            && c.world.users == w.users
            && c.world.leaves == w.leaves + [s.created.value.(status := Cancelled)]
  {
    CancelRestoresUsers(w, v, net);
    CancelMarksRequest(w, v, net);
  }

  lemma CancelRestoresUsers(w: World, v: ApplyView, net: SubmitNetwork)
    requires FreshView(w, v) && FreshId(w, net.newId)
    requires Submit(w, v, net).error.None?
    ensures var s := Submit(w, v, net);
            var c := Cancel(s.world, v.userId, Some(s.world.users[v.userId]), s.created.value, true, true);
            c.cancelError == "" && c.world.users == w.users
  {
    var s := Submit(w, v, net);
    CreatedIsFound(w, v, net);
    SubmitDebitsOwner(w, v, net);
    CancelOfDebitedRestores(w.users, s.world, s.created.value, v.userId);
  }

  /** A cancel, with both calls succeeding, of a request whose days were
      debited from its owner gives back the owner map from before the debit. */
  lemma CancelOfDebitedRestores(users: map<string, User>, sw: World, l: Leave, id: string)
    requires id in users && IndexOfLeave(sw.leaves, l.id).Some?
    requires var t := l.leavePaymentType;
             sw.users == users[id := WithUserBalance(users[id], t, UserBalance(users[id], t) - l.days)]
    ensures var c := Cancel(sw, id, Some(sw.users[id]), l, true, true);
            c.cancelError == "" && c.world.users == users
  {
    CreditAfterDebitRestores(users, id, l.leavePaymentType, l.days);
  }

  lemma CancelMarksRequest(w: World, v: ApplyView, net: SubmitNetwork)
    requires FreshView(w, v) && FreshId(w, net.newId)
    requires Submit(w, v, net).error.None?
    ensures var s := Submit(w, v, net);
            var c := Cancel(s.world, v.userId, Some(s.world.users[v.userId]), s.created.value, true, true);
            c.world.leaves == w.leaves + [s.created.value.(status := Cancelled)]
  {
    var s := Submit(w, v, net);
    CreatedIsFound(w, v, net);
    var l := s.created.value;
    assert l.(status := Cancelled, userId := v.userId) == l.(status := Cancelled);
    ReplaceLast(w.leaves, l, l.(status := Cancelled));
  }

  /** Submit, then the manager approves: the debit stays. */
  lemma SubmitThenApproveKeepsDebit(w: World, v: ApplyView, net: SubmitNetwork, comment: string)
    requires FreshView(w, v) && FreshId(w, net.newId)
    requires Submit(w, v, net).error.None?
    ensures var s := Submit(w, v, net);
            var row := TeamRequest(s.created.value, v.userId, "Unknown");
            var r := Review(s.world, Some(row), net.newId, Approve, Some(s.world.users[v.userId]), comment, true, true);
            var t := v.form.leavePaymentType;
            r.report == Reviewed
            && UserBalance(r.world.users[v.userId], t) == UserBalance(w.users[v.userId], t) - s.created.value.days
            && r.world.leaves == w.leaves + [s.created.value.(status := Approved)]
  {
    CreatedIsFound(w, v, net);
  }

  /** Once a request is created, a second request of the same user whose
      range intersects it is refused as overlapping, provided the second
      form's view is fresh and passes the earlier checks. */
  lemma SecondOverlappingSubmitRefused(w: World, v: ApplyView, net: SubmitNetwork, v2: ApplyView, net2: SubmitNetwork)
    requires FreshView(w, v) && Submit(w, v, net).error.None?
    requires v2.userId == v.userId && FreshView(Submit(w, v, net).world, v2)
    requires HasBothDates(v2.form)
    requires var l := Submit(w, v, net).created.value;
             RangesIntersect(v2.form.startDate.value, v2.form.endDate.value, l.startDate, l.endDate)
    requires 0 < DaysRequested(v2.form) <= v2.balances.Get(v2.form.leavePaymentType)
    ensures Submit(Submit(w, v, net).world, v2, net2).error == Some(OverlapsExisting)
  {
    var s := Submit(w, v, net);
    var l := s.created.value;
    assert l == s.world.leaves[|w.leaves|];
    assert l in s.world.leaves;
    assert l in v2.leaveData;
    var i :| 0 <= i < |v2.leaveData| && v2.leaveData[i] == l;
    assert OverlapFlag(v2.form, v2.leaveData);
    assert s.world.users[v.userId].reports == w.users[v.userId].reports;
  }

  /** Nothing is re-read after a submit: the form keeps its cached request
      list and user record and updates only its local balances. Submitting
      the same form again from that view is accepted when the balance covers
      both, and the server then holds two requests for the same range, with
      the owner debited twice. */
  lemma StaleResubmitAccepted(w: World, v: ApplyView, net: SubmitNetwork, net2: SubmitNetwork)
    requires FreshView(w, v) && Submit(w, v, net).error.None?
    requires 2 * DaysRequested(v.form) <= v.balances.Get(v.form.leavePaymentType)
    requires net2.createOk && net2.balanceOk
    ensures var s := Submit(w, v, net);
            var s2 := Submit(s.world, v.(balances := s.balances), net2);
            var t := v.form.leavePaymentType;
            var days := DaysRequested(v.form);
            s2.error.None?
            && s2.world.leaves == w.leaves + [s.created.value, s2.created.value]
            && s2.created.value.startDate == s.created.value.startDate
            && s2.created.value.endDate == s.created.value.endDate
            && UserBalance(s2.world.users[v.userId], t) == UserBalance(w.users[v.userId], t) - 2 * days
  {
    var s := Submit(w, v, net);
    var v2 := v.(balances := s.balances);
    var t := v.form.leavePaymentType;
    var days := DaysRequested(v.form);
    assert ViewCheck(v).None?;
    assert v2.balances.Get(t) == v.balances.Get(t) - days;
    assert ViewCheck(v2).None?;
    var s2 := Submit(s.world, v2, net2);
    assert s2.world.leaves == (w.leaves + [s.created.value]) + [s2.created.value];
  }

  /** A cancel from an up-to-date user record, with both calls succeeding,
      of a request the server still holds, credits its days on top of the
      current balance, whatever the request's status on the server. */
  lemma CancelCreditsCurrentBalance(cw: World, id: string, l: Leave)
    requires id in cw.users && IndexOfLeave(cw.leaves, l.id).Some?
    ensures var c := Cancel(cw, id, Some(cw.users[id]), l, true, true);
            var t := l.leavePaymentType;
            c.cancelError == "" && UserBalance(c.world.users[id], t) == UserBalance(cw.users[id], t) + l.days
  {
  }

  /** The employee's pending list is a cached query (LeaveStatus.tsx:35,41)
      and cancel never checks the status on the server. After a submit and a
      rejection that already credited the request back, a cancel from the
      stale list succeeds. When the user record it reads is newer than the
      list (read after the rejection), the cancel credits the same days a
      second time; with a record cached together with the list it only
      writes back the restored balance. */
  lemma RejectThenStaleCancelCreditsTwice(w: World, v: ApplyView, net: SubmitNetwork, comment: string)
    requires FreshView(w, v) && FreshId(w, net.newId)
    requires Submit(w, v, net).error.None?
    ensures var s := Submit(w, v, net);
            var l := s.created.value;
            var r := Review(s.world, Some(TeamRequest(l, v.userId, "Unknown")), net.newId, Reject,
                            Some(s.world.users[v.userId]), comment, true, true);
            var c := Cancel(r.world, v.userId, Some(r.world.users[v.userId]), l, true, true);
            var t := l.leavePaymentType;
            l.days > 0 && r.report == Reviewed && c.cancelError == ""
            && UserBalance(c.world.users[v.userId], t) == UserBalance(w.users[v.userId], t) + l.days
  {
    var s := Submit(w, v, net);
    var l := s.created.value;
    SubmitThenRejectRestores(w, v, net, comment);
    CreatedIsFound(w, v, net);
    IndexKeptByUpdate(s.world.leaves, |w.leaves|, l.(status := Rejected), l.id);
    ReplaceLast(w.leaves, l, l.(status := Rejected));
    var r := Review(s.world, Some(TeamRequest(l, v.userId, "Unknown")), net.newId, Reject,
                    Some(s.world.users[v.userId]), comment, true, true);
    CancelCreditsCurrentBalance(r.world, v.userId, l);
  }

  /** A rejection, with both calls succeeding, credits the request's days on
      top of the balance in the record it is given, whatever the server holds. */
  lemma RejectCreditsGivenRecord(cw: World, row: TeamRequest, id: string, employee: User, comment: string)
    requires IndexOfLeave(cw.leaves, id).Some? && row.employeeId in cw.users
    ensures var r := Review(cw, Some(row), id, Reject, Some(employee), comment, true, true);
            var i := IndexOfLeave(cw.leaves, id).value;
            var t := row.leave.leavePaymentType;
            r.report == Reviewed
            && UserBalance(r.world.users[row.employeeId], t) == UserBalance(employee, t) + row.leave.days
            && r.world.leaves == cw.leaves[i := cw.leaves[i].(status := Rejected)]
  {
  }

  /** The manager's team list is refetched only after the manager's own
      review (ManagerLeaveRequests.tsx:27,66), and the owner's record comes
      from a by-id query that nothing invalidates, cached with the row. After
      a submit and a cancel that already credited the request back, a
      rejection from the stale row succeeds and turns the cancelled request
      into a rejected one. With the record cached before the cancel, its
      credit only writes back the balance the cancel restored. */
  lemma CancelThenStaleRejectRestatus(w: World, v: ApplyView, net: SubmitNetwork, comment: string)
    requires FreshView(w, v) && FreshId(w, net.newId)
    requires Submit(w, v, net).error.None?
    ensures var s := Submit(w, v, net);
            var l := s.created.value;
            var c := Cancel(s.world, v.userId, Some(s.world.users[v.userId]), l, true, true);
            var r := Review(c.world, Some(TeamRequest(l, v.userId, "Unknown")), net.newId, Reject,
                            Some(s.world.users[v.userId]), comment, true, true);
            var t := l.leavePaymentType;
            c.cancelError == "" && r.report == Reviewed
            && r.world.leaves == w.leaves + [l.(status := Rejected)]
            && UserBalance(r.world.users[v.userId], t) == UserBalance(w.users[v.userId], t)
  {
    var s := Submit(w, v, net);
    var l := s.created.value;
    SubmitThenCancelRestores(w, v, net);
    SubmitDebitsOwner(w, v, net);
    CreatedIsFound(w, v, net);
    IndexKeptByUpdate(s.world.leaves, |w.leaves|, l.(status := Cancelled), l.id);
    var c := Cancel(s.world, v.userId, Some(s.world.users[v.userId]), l, true, true);
    RejectCreditsGivenRecord(c.world, TeamRequest(l, v.userId, "Unknown"), net.newId, s.world.users[v.userId], comment);
    ReplaceLast(w.leaves, l.(status := Cancelled), l.(status := Rejected));
  }

  /** The rejection credits the balance of the record the manager's view
      holds, not the server's. When that record was cached before the
      submit's debit (the employee's earlier request was on screen), the
      rejection writes the pre-debit balance plus the request's days: the
      owner ends `days` above where they were before the submit. */
  lemma CachedRecordRejectOverCredits(w: World, v: ApplyView, net: SubmitNetwork, comment: string)
    requires FreshView(w, v) && FreshId(w, net.newId)
    requires Submit(w, v, net).error.None?
    ensures var s := Submit(w, v, net);
            var l := s.created.value;
            var r := Review(s.world, Some(TeamRequest(l, v.userId, "Unknown")), net.newId, Reject,
                            Some(w.users[v.userId]), comment, true, true);
            var t := l.leavePaymentType;
            l.days > 0 && r.report == Reviewed
            && UserBalance(r.world.users[v.userId], t) == UserBalance(w.users[v.userId], t) + l.days
  {
    var s := Submit(w, v, net);
    CreatedIsFound(w, v, net);
    RejectCreditsGivenRecord(s.world, TeamRequest(s.created.value, v.userId, "Unknown"), net.newId, w.users[v.userId], comment);
  }

  /** The worked example: a user with ten paid days asks for a paid
      Monday-to-Friday week; five days are counted and debited, and a
      rejection restores the ten. */
  lemma PaidWeekScenario(w: World, v: ApplyView, net: SubmitNetwork, monday: int, comment: string)
    requires FreshView(w, v) && FreshId(w, net.newId) && HasManager(v.userData) && v.userId != ""
    requires w.users[v.userId].paidLeaveBalance == 10
    requires Weekday(monday) == 1
    requires v.form.startDate == Some(monday) && v.form.endDate == Some(monday + 4)
    requires v.form.leavePaymentType == Paid
    requires !OverlapFlag(v.form, v.leaveData)
    requires net.createOk && net.balanceOk
    ensures var s := Submit(w, v, net);
            s.error.None? && s.created.value.days == 5 && s.created.value.status == Pending
            && s.world.users[v.userId].paidLeaveBalance == 5
            && var row := TeamRequest(s.created.value, v.userId, "Unknown");
               var r := Review(s.world, Some(row), net.newId, Reject, Some(s.world.users[v.userId]), comment, true, true);
               r.world.users[v.userId].paidLeaveBalance == 10
  {
    WorkWeekCounts(monday);
    assert DaysRequested(v.form) == 5;
    SubmitThenRejectRestores(w, v, net, comment);
  }
}

=== FILE: mock_server.dfy ===
/** The mock backend's in-memory leave store (backend/server.js): an
    append-only list of records with a list-all query, a by-owner query and
    a create handler that stamps the record. */
module MockServer {
  import opened Json
  import opened Seqs

  type Store = seq<Object>

  /** The response of GET /api/leaves: the whole store. */
  function GetAll(store: Store): (r: Store)
    ensures |r| == |store| && forall i :: 0 <= i < |r| ==> r[i] == store[i]
    ensures forall userId: string, rec :: rec in GetByUser(store, userId) ==> rec in r
  {
    store
  }

  /** A record belongs to `userId` when its `userId` property is that string. */
  predicate OwnedBy(record: Object, userId: string) {
    Get(record, "userId") == JStr(userId)
  }

  /** GET /api/leaves/:userId: the records of that user, in insertion order. */
  function GetByUser(store: Store, userId: string): (r: Store)
    ensures |r| <= |store|
    ensures forall rec :: rec in r <==> rec in store && OwnedBy(rec, userId)
  {
    Filter(store, (rec: Object) => OwnedBy(rec, userId))
  }

  /** The record POST /api/leaves stores: `{id: now, ...body, submittedAt, status: 'pending'}`. */
  function NewRecord(body: Object, nowMs: int, nowIso: string): (r: Object)
    ensures r.Keys == body.Keys + {"id", "submittedAt", "status"}
    ensures r["status"] == JStr("pending") && r["submittedAt"] == JStr(nowIso)
    ensures r["id"] == (if "id" in body then body["id"] else JNum(nowMs))
    ensures forall k :: k in body && k != "submittedAt" && k != "status" ==> r[k] == body[k]
  {
    Spread(Spread(map["id" := JNum(nowMs)], body),
           map["submittedAt" := JStr(nowIso), "status" := JStr("pending")])
  }

  datatype PostResult = PostResult(store: Store, response: Object)

  /** POST /api/leaves: appends one stamped record and answers with it. */
  function Post(store: Store, body: Object, nowMs: int, nowIso: string): (r: PostResult)
    ensures |r.store| == |store| + 1
    ensures r.store[..|store|] == store
    ensures r.store[|store|] == r.response
    ensures r.response.Keys == body.Keys + {"id", "submittedAt", "status"}
    ensures r.response["status"] == JStr("pending") && r.response["submittedAt"] == JStr(nowIso)
    ensures "id" in body ==> r.response["id"] == body["id"]
    ensures forall k :: k in body && k != "submittedAt" && k != "status" ==> r.response[k] == body[k]
  {
    var record := NewRecord(body, nowMs, nowIso);
    PostResult(store + [record], record)
  }

  /** After a POST the list-all query answers the old store followed by the
      new record, and a by-owner query gains the record exactly when its
      owner is the one asked about. */
  lemma PostThenGet(store: Store, body: Object, nowMs: int, nowIso: string, userId: string)
    ensures var p := Post(store, body, nowMs, nowIso);
            GetAll(p.store) == store + [p.response]
            && GetByUser(p.store, userId)
               == GetByUser(store, userId) + (if OwnedBy(p.response, userId) then [p.response] else [])
  {
    var p := Post(store, body, nowMs, nowIso);
    FilterConcat(store, [p.response], (rec: Object) => OwnedBy(rec, userId));
  }

  /** The by-owner query of a store holding only that owner's records is the
      whole store. */
  lemma GetByUserOfOwnStore(store: Store, userId: string)
    requires forall i :: 0 <= i < |store| ==> OwnedBy(store[i], userId)
    ensures GetByUser(store, userId) == store
  {
    FilterAll(store, (rec: Object) => OwnedBy(rec, userId));
  }
}

=== FILE: month_calendar.dfy ===
/** The dashboard's month calendar (src/components/DynamicCalender.tsx): the
    length of a month and its first weekday as the `Date` constructor yields
    them, the grid of cells the month is drawn on, and month navigation. */
module MonthCalendar {
  import opened Types
  import opened Days

  /** `new Date(y, ...)` reads a year argument 0..99 as 1900..1999. */
  function JsFullYear(year: int): (y: int)
    ensures 0 <= year <= 99 ==> y == 1900 + year
    ensures !(0 <= year <= 99) ==> y == year
  {
    if 0 <= year <= 99 then 1900 + year else year
  }

  /** Proleptic Gregorian leap years (astronomical numbering, as `Date` uses). */
  predicate IsLeap(y: int) {
    y % 4 == 0 && (y % 100 != 0 || y % 400 == 0)
  }

  /** The month-length table, months numbered 0..11 as `Date` numbers them. */
  function MonthLength(y: int, month: int): (n: int)
    requires 0 <= month < 12
    ensures 28 <= n <= 31
    ensures month == 1 ==> (n == 29 <==> IsLeap(y)) && (n == 28 <==> !IsLeap(y))
    ensures month == 3 || month == 5 || month == 8 || month == 10 ==> n == 30
    ensures month in {0, 2, 4, 6, 7, 9, 11} ==> n == 31
  {
    if month == 1 then (if IsLeap(y) then 29 else 28)
    else if month == 3 || month == 5 || month == 8 || month == 10 then 30
    else 31
  }

  /** Days of year `y` before the first of `month`; month 12 stands for the
      whole year. */
  function DaysBeforeMonth(y: int, month: int): int
    requires 0 <= month <= 12
  {
    var common :=
      if month < 6 then
        (if month == 0 then 0 else if month == 1 then 31 else if month == 2 then 59
         else if month == 3 then 90 else if month == 4 then 120 else 151)
      else
        (if month == 6 then 181 else if month == 7 then 212 else if month == 8 then 243
         else if month == 9 then 273 else if month == 10 then 304 else if month == 11 then 334 else 365);
    common + (if IsLeap(y) && month >= 2 then 1 else 0)
  }

  /** The cumulative table agrees with the month-length table. */
  lemma DaysBeforeMonthStep(y: int, month: int)
    requires 0 <= month < 12
    ensures DaysBeforeMonth(y, month + 1) == DaysBeforeMonth(y, month) + MonthLength(y, month)
  {
  }

  /** Leap days in years 1..n (or the negated count for n < 0): the leap
      years up to `n` under the Gregorian rule, counted by floor division. */
  function LeapDaysThrough(n: int): int {
    n / 4 - n / 100 + n / 400
  }

  /** One more year adds one leap day exactly when that year is a leap year. */
  lemma LeapDaysStep(y: int)
    ensures LeapDaysThrough(y) - LeapDaysThrough(y - 1) == (if IsLeap(y) then 1 else 0)
  {
    Div4Step(y);
    Div100Step(y);
    Div400Step(y);
    var a, b, c := y % 4 == 0, y % 100 == 0, y % 400 == 0;
    if b {
      CenturyIsQuadrennial(y);
    }
    if c {
      QuadricentennialIsCentury(y);
    }
    assert IsLeap(y) == (a && (!b || c));
  }

  lemma CenturyIsQuadrennial(y: int)
    requires y % 100 == 0
    ensures y % 4 == 0
  {
    var k := y / 100;
    assert y == 4 * (25 * k);
  }

  lemma QuadricentennialIsCentury(y: int)
    requires y % 400 == 0
    ensures y % 100 == 0
  {
    var k := y / 400;
    assert y == 100 * (4 * k);
  }

  lemma Div4Step(y: int)
    ensures y / 4 - (y - 1) / 4 == (if y % 4 == 0 then 1 else 0)
  {
  }

  lemma Div100Step(y: int)
    ensures y / 100 - (y - 1) / 100 == (if y % 100 == 0 then 1 else 0)
  {
  }

  lemma Div400Step(y: int)
    ensures y / 400 - (y - 1) / 400 == (if y % 400 == 0 then 1 else 0)
  {
  }

  /** Day number of January 1st of year `y` (1970-01-01 is day 0). */
  function DaysBeforeYear(y: int): int {
    365 * (y - 1970) + LeapDaysThrough(y - 1) - LeapDaysThrough(1969)
  }

  /** A year is 366 days long when it is a leap year, otherwise 365. */
  lemma YearLength(y: int)
    ensures DaysBeforeYear(y + 1) - DaysBeforeYear(y) == DaysBeforeMonth(y, 12)
  {
    LeapDaysStep(y);
  }

  /** `new Date(year, month, day)` as a day number: the year argument is read
      through `JsFullYear`, a month outside 0..11 carries into the year, and a
      day outside the month carries into the neighbouring months. */
  function MakeDate(year: int, month: int, day: int): int {
    var y := JsFullYear(year) + month / 12;
    DaysBeforeYear(y) + DaysBeforeMonth(y, month % 12) + day - 1
  }

  /** A day of a month, given with an in-range month, falls in the year
      `JsFullYear` reads. */
  lemma MakeDateInYear(year: int, month: int, day: int)
    requires 0 <= month < 12 && 1 <= day <= MonthLength(JsFullYear(year), month)
    ensures DaysBeforeYear(JsFullYear(year)) <= MakeDate(year, month, day) < DaysBeforeYear(JsFullYear(year) + 1)
  {
    var y := JsFullYear(year);
    assert month / 12 == 0 && month % 12 == month;
    MonthFitsInYear(y, month);
    YearLength(y);
  }

  /** A month ends within its year. */
  lemma MonthFitsInYear(y: int, month: int)
    requires 0 <= month < 12
    ensures 0 <= DaysBeforeMonth(y, month) && DaysBeforeMonth(y, month) + MonthLength(y, month) <= DaysBeforeMonth(y, 12)
  {
  }

  /** Twelve months past `month` is the same month of the next year, except
      from the year arguments -1 and 99, where the constructor's reading of
      0..99 breaks the step. */
  lemma MonthCarry(year: int, month: int, day: int)
    requires year != -1 && year != 99
    ensures MakeDate(year, month + 12, day) == MakeDate(year + 1, month, day)
  {
    assert JsFullYear(year + 1) == JsFullYear(year) + 1;
    assert (month + 12) / 12 == month / 12 + 1 && (month + 12) % 12 == month % 12;
  }

  /** Month -1 is the December before: 31 days before January. */
  lemma DecemberBefore(year: int)
    ensures MakeDate(year, -1, 1) + 31 == MakeDate(year, 0, 1)
  {
    var y := JsFullYear(year);
    assert (-1) / 12 == -1 && (-1) % 12 == 11;
    YearLength(y - 1);
  }

  /** The calendar year and month `new Date(year, month, 1)` lands in. */
  function CivilYear(year: int, month: int): int {
    JsFullYear(year) + month / 12
  }

  /** The last day before the first of `month + 1` lies the month table's
      length of days after the first of `month`, less one. */
  lemma MonthEnd(year: int, month: int)
    ensures MakeDate(year, month + 1, 0) - MakeDate(year, month, 1) + 1
            == MonthLength(CivilYear(year, month), month % 12)
  {
    var y := CivilYear(year, month);
    if month % 12 == 11 {
      assert (month + 1) / 12 == month / 12 + 1 && (month + 1) % 12 == 0;
      YearLength(y);
    } else {
      assert (month + 1) / 12 == month / 12 && (month + 1) % 12 == month % 12 + 1;
      DaysBeforeMonthStep(y, month % 12);
    }
  }

  /** `getDaysInMonth`: the day of the month of `new Date(year, month + 1, 0)`,
      the last day of the month before `month + 1`, counted from the first of
      `month`. It is the length the month table gives. */
  function GetDaysInMonth(year: int, month: int): (n: int)
    ensures n == MonthLength(CivilYear(year, month), month % 12)
    ensures MakeDate(year, month + 1, 0) == MakeDate(year, month, 1) + n - 1
  {
    MonthEnd(year, month);
    MakeDate(year, month + 1, 0) - MakeDate(year, month, 1) + 1
  }

  /** `getFirstDayOfMonth`: the weekday (0 = Sunday) of the first of the
      month: the weekday of New Year's Day of the calendar year the month
      lands in, advanced by the days of that year before the month. */
  function GetFirstDayOfMonth(year: int, month: int): (w: int)
    ensures 0 <= w < 7
    ensures var y := CivilYear(year, month);
            w == (Weekday(DaysBeforeYear(y)) + DaysBeforeMonth(y, month % 12)) % 7
  {
    WeekdayAfter(DaysBeforeYear(CivilYear(year, month)), DaysBeforeMonth(CivilYear(year, month), month % 12));
    Weekday(MakeDate(year, month, 1))
  }

  /** Within one year argument, each month starts on the weekday after the
      last day of the month before. */
  lemma NextMonthStartsAfterLast(year: int, month: int)
    ensures GetFirstDayOfMonth(year, month + 1)
            == (GetFirstDayOfMonth(year, month) + GetDaysInMonth(year, month)) % 7
  {
    var first := MakeDate(year, month, 1);
    var n := GetDaysInMonth(year, month);
    assert MakeDate(year, month + 1, 1) == MakeDate(year, month + 1, 0) + 1;
    WeekdayAfter(first, n);
  }

  /** 2024-01-01 was a Monday. */
  lemma KnownFirstDay()
    ensures MakeDate(2024, 0, 1) == 19723 && GetFirstDayOfMonth(2024, 0) == 1
  {
    assert LeapDaysThrough(2023) == 490;
    assert LeapDaysThrough(1969) == 477;
    assert DaysBeforeYear(2024) == 19723;
  }

  /** February had 29 days in 2024 and 2000, and 28 in 2023 and 1900. */
  lemma KnownFebruaries()
    ensures GetDaysInMonth(2024, 1) == 29 && GetDaysInMonth(2023, 1) == 28
    ensures GetDaysInMonth(1900, 1) == 28 && GetDaysInMonth(2000, 1) == 29
  {
    assert CivilYear(2024, 1) == 2024 && CivilYear(2023, 1) == 2023;
    assert CivilYear(1900, 1) == 1900 && CivilYear(2000, 1) == 2000;
  }

  /** The grid cells: `firstDay` empty cells, then the day numbers 1..daysInMonth. */
  method CalendarCells(firstDay: nat, daysInMonth: nat) returns (cells: seq<Option<int>>)
    ensures |cells| == firstDay + daysInMonth
    ensures forall i :: 0 <= i < firstDay ==> cells[i] == None
    ensures forall i :: firstDay <= i < |cells| ==> cells[i] == Some(i - firstDay + 1)
  {
    cells := [];
    var i := 0;
    while i < firstDay
      invariant 0 <= i <= firstDay
      invariant |cells| == i
      invariant forall j :: 0 <= j < i ==> cells[j] == None
    {
      cells := cells + [None];
      i := i + 1;
    }
    i := 1;
    while i <= daysInMonth
      invariant 1 <= i <= daysInMonth + 1
      invariant |cells| == firstDay + i - 1
      invariant forall j :: 0 <= j < firstDay ==> cells[j] == None
      invariant forall j :: firstDay <= j < |cells| ==> cells[j] == Some(j - firstDay + 1)
    {
      cells := cells + [Some(i)];
      i := i + 1;
    }
  }

  /** The cells of a displayed month fit in six rows of seven, and the day
      numbers appear in ascending order, each once. */
  method MonthCells(year: int, month: int) returns (cells: seq<Option<int>>)
    ensures 28 <= |cells| <= 42
    ensures |cells| == GetFirstDayOfMonth(year, month) + GetDaysInMonth(year, month)
    ensures forall i, j :: 0 <= i < j < |cells| && cells[i].Some? ==> cells[j].Some? && cells[i].value < cells[j].value
    ensures forall d :: 1 <= d <= GetDaysInMonth(year, month) <==> Some(d) in cells
  {
    var firstDay := GetFirstDayOfMonth(year, month);
    var n := GetDaysInMonth(year, month);
    cells := CalendarCells(firstDay, n);
    forall d | 1 <= d <= n
      ensures Some(d) in cells
    {
      assert cells[firstDay + d - 1] == Some(d);
    }
  }

  /** The month on display: `currentYear` and `currentMonth` (0..11). */
  datatype YearMonth = YearMonth(year: int, month: int)

  /** Months counted from year 0, for ordering displayed months. */
  function MonthIndex(ym: YearMonth): int {
    12 * ym.year + ym.month
  }

  /** `handleNextMonth`. */
  function Next(ym: YearMonth): (r: YearMonth)
    ensures 0 <= ym.month < 12 ==> 0 <= r.month < 12 && MonthIndex(r) == MonthIndex(ym) + 1
    ensures ym.month == 11 ==> r == YearMonth(ym.year + 1, 0)
    ensures ym.month != 11 ==> r.year == ym.year
  {
    if ym.month == 11 then YearMonth(ym.year + 1, 0) else YearMonth(ym.year, ym.month + 1)
  }

  /** `handlePrevMonth`. */
  function Prev(ym: YearMonth): (r: YearMonth)
    ensures 0 <= ym.month < 12 ==> 0 <= r.month < 12 && MonthIndex(r) == MonthIndex(ym) - 1
    ensures ym.month == 0 ==> r == YearMonth(ym.year - 1, 11)
    ensures ym.month != 0 ==> r.year == ym.year
  {
    if ym.month == 0 then YearMonth(ym.year - 1, 11) else YearMonth(ym.year, ym.month - 1)
  }

  /** Next and previous undo each other on every displayable month. */
  lemma NavigationRoundTrip(ym: YearMonth)
    requires 0 <= ym.month < 12
    ensures Prev(Next(ym)) == ym && Next(Prev(ym)) == ym
  {
  }

  /** Stepping forward `k` months from a valid month. */
  function Forward(ym: YearMonth, k: nat): YearMonth {
    if k == 0 then ym else Next(Forward(ym, k - 1))
  }

  /** Repeated navigation stays on valid months and moves the month index by
      exactly the number of steps. */
  lemma {:induction false} ForwardIndex(ym: YearMonth, k: nat)
    requires 0 <= ym.month < 12
    ensures 0 <= Forward(ym, k).month < 12
    ensures MonthIndex(Forward(ym, k)) == MonthIndex(ym) + k
  {
    if k > 0 {
      ForwardIndex(ym, k - 1);
    }
  }

  /** Navigating to the next month shows the month that starts the day
      after the displayed one ends, unless the `Date` constructor's reading
      of years 0..99 intervenes. */
  lemma NextShowsFollowingMonth(ym: YearMonth)
    requires 0 <= ym.month < 12
    requires !(-1 <= ym.year <= 99)
    ensures MakeDate(Next(ym).year, Next(ym).month, 1)
            == MakeDate(ym.year, ym.month, 1) + GetDaysInMonth(ym.year, ym.month)
  {
    NextIsMonthPlusOne(ym);
    DayCarry(ym.year, ym.month + 1, 0);
    Chain(MakeDate(Next(ym).year, Next(ym).month, 1), MakeDate(ym.year, ym.month + 1, 1),
          MakeDate(ym.year, ym.month + 1, 0), MakeDate(ym.year, ym.month, 1),
          GetDaysInMonth(ym.year, ym.month));
  }

  /** Linear glue for the step above. */
  lemma Chain(next: int, carried: int, last: int, first: int, n: int)
    requires next == carried && carried == last + 1 && last == first + n - 1
    ensures next == first + n
  {
  }

  /** ... so its grid starts on the weekday after the last day shown. */
  lemma NextStartsOnFollowingWeekday(ym: YearMonth)
    requires 0 <= ym.month < 12
    requires !(-1 <= ym.year <= 99)
    ensures GetFirstDayOfMonth(Next(ym).year, Next(ym).month)
            == (GetFirstDayOfMonth(ym.year, ym.month) + GetDaysInMonth(ym.year, ym.month)) % 7
  {
    NextIsMonthPlusOne(ym);
    NextMonthStartsAfterLast(ym.year, ym.month);
  }

  /** The day after day `day` of a month is day `day + 1`. */
  lemma DayCarry(year: int, month: int, day: int)
    ensures MakeDate(year, month, day + 1) == MakeDate(year, month, day) + 1
  {
  }

  /** Outside the years the constructor reinterprets, the first of the next
      displayed month is the first of month `month + 1` of the same year
      argument. */
  lemma NextIsMonthPlusOne(ym: YearMonth)
    requires 0 <= ym.month < 12
    requires !(-1 <= ym.year <= 99)
    ensures MakeDate(Next(ym).year, Next(ym).month, 1) == MakeDate(ym.year, ym.month + 1, 1)
  {
    if ym.month == 11 {
      assert JsFullYear(ym.year + 1) == JsFullYear(ym.year) + 1;
      assert CivilYear(ym.year + 1, 0) == CivilYear(ym.year, 12);
    }
  }
}

=== FILE: seqs.dfy ===
/** `Array.prototype.filter` over sequences, with the facts the list views
    and the backend's query rely on. */
module Seqs {

  /** The elements of `s` that satisfy `p`, in their original order. */
  function Filter<T>(s: seq<T>, p: T -> bool): (r: seq<T>)
    ensures |r| <= |s|
    ensures forall x :: x in r ==> x in s && p(x)
    ensures forall x :: x in s && p(x) ==> x in r
  {
    if s == [] then []
    else (if p(s[0]) then [s[0]] else []) + Filter(s[1..], p)
  }

  /** Filtering distributes over concatenation, so relative order is kept. */
  lemma {:induction false} FilterConcat<T>(a: seq<T>, b: seq<T>, p: T -> bool)
    ensures Filter(a + b, p) == Filter(a, p) + Filter(b, p)
  {
    if a == [] {
      assert a + b == b;
    } else {
      assert (a + b)[1..] == a[1..] + b;
      FilterConcat(a[1..], b, p);
    }
  }

  /** Filtering by a predicate and by its complement (on the elements of `s`)
      splits `s` into two parts that together hold every element exactly as
      often as `s` does. */
  lemma FilterPartition<T>(s: seq<T>, p: T -> bool, q: T -> bool)
    requires forall i :: 0 <= i < |s| ==> q(s[i]) == !p(s[i])
    ensures |Filter(s, p)| + |Filter(s, q)| == |s|
    ensures multiset(Filter(s, p)) + multiset(Filter(s, q)) == multiset(s)
  {
    FilterSplitsMultiset(s, p, q);
    assert |multiset(Filter(s, p)) + multiset(Filter(s, q))| == |multiset(s)|;
  }

  /** The multiset half of `FilterPartition`, by induction on `s`. */
  lemma {:induction false} FilterSplitsMultiset<T>(s: seq<T>, p: T -> bool, q: T -> bool)
    requires forall i :: 0 <= i < |s| ==> q(s[i]) == !p(s[i])
    ensures multiset(Filter(s, p)) + multiset(Filter(s, q)) == multiset(s)
  {
    if s != [] {
      FilterSplitsMultiset(s[1..], p, q);
      assert s == [s[0]] + s[1..];
    }
  }

  /** A filter that keeps everything returns its input. */
  lemma {:induction false} FilterAll<T>(s: seq<T>, p: T -> bool)
    requires forall x :: x in s ==> p(x)
    ensures Filter(s, p) == s
  {
    if s != [] {
      FilterAll(s[1..], p);
      assert s == [s[0]] + s[1..];
    }
  }
}

=== FILE: types.dfy ===
/** The records of the leave-management application: users with their two
    leave balances, and leave requests. Dates are day numbers (see module Days). */
module Types {

  datatype Option<T> = None | Some(value: T)

  datatype Role = Employee | Manager | HR

  /** Which of the two balances a request draws on. */
  datatype PaymentType = Paid | Unpaid

  /** Request status. `Unset` stands for a record whose status field is
      missing or empty, which the history filter guards against. */
  datatype Status = Pending | Approved | Rejected | Cancelled | Unset

  datatype User = User(
    id: string,
    name: string,
    email: string,
    password: string,
    role: Role,
    reports: string,          // id of the user's manager, "" when none
    paidLeaveBalance: int,
    unpaidLeaveBalance: int)

  datatype Leave = Leave(
    id: string,
    userId: string,
    startDate: int,
    endDate: int,
    leaveCategory: string,
    leavePaymentType: PaymentType,
    reason: string,
    days: int,
    submittedAt: string,
    status: Status)

  /** A pair of balances as a component holds them in its local state. */
  datatype Balances = Balances(paid: int, unpaid: int) {

    function Get(t: PaymentType): int {
      if t == Paid then paid else unpaid
    }

    /** Replaces the balance of type `t`; the other balance is kept. */
    function Set(t: PaymentType, v: int): (r: Balances)
      ensures r.Get(t) == v
      ensures forall o: PaymentType :: o != t ==> r.Get(o) == Get(o)
    {
      if t == Paid then Balances(v, unpaid) else Balances(paid, v)
    }
  }

  function BalancesOf(u: User): Balances {
    Balances(u.paidLeaveBalance, u.unpaidLeaveBalance)
  }

  function UserBalance(u: User, t: PaymentType): int {
    BalancesOf(u).Get(t)
  }

  /** The user with the balance of type `t` replaced by `v`; every other
      field, and the other balance, is unchanged. */
  function WithUserBalance(u: User, t: PaymentType, v: int): (r: User)
    ensures UserBalance(r, t) == v
    ensures forall o: PaymentType :: o != t ==> UserBalance(r, o) == UserBalance(u, o)
    ensures r.id == u.id && r.name == u.name && r.email == u.email && r.password == u.password
    ensures r.role == u.role && r.reports == u.reports
  {
    if t == Paid then u.(paidLeaveBalance := v) else u.(unpaidLeaveBalance := v)
  }

  /** Crediting back the days a debit took restores the user record exactly:
      the round trip behind "reject or cancel undoes the submit debit". */
  lemma CreditUndoesDebit(u: User, t: PaymentType, d: int)
    ensures var debited := WithUserBalance(u, t, UserBalance(u, t) - d);
            WithUserBalance(debited, t, UserBalance(debited, t) + d) == u
  {
  }

  function PaymentTypeName(t: PaymentType): string {
    if t == Paid then "paid" else "unpaid"
  }

  function StatusName(s: Status): string {
    match s
    case Pending => "pending"
    case Approved => "approved"
    case Rejected => "rejected"
    case Cancelled => "cancelled"
    case Unset => ""
  }

  /** Reads a status string; unknown strings read as `Unset`. */
  function ParseStatus(s: string): (r: Status)
    ensures r != Unset ==> StatusName(r) == s
  {
    if s == "pending" then Pending
    else if s == "approved" then Approved
    else if s == "rejected" then Rejected
    else if s == "cancelled" then Cancelled
    else Unset
  }

  lemma ParseStatusName(s: Status)
    ensures ParseStatus(StatusName(s)) == s
  {
  }

  function RoleName(r: Role): string {
    match r
    case Employee => "employee"
    case Manager => "manager"
    case HR => "hr"
  }
}

=== FILE: user_service.dfy ===
/** The user endpoints the leave logic depends on (src/services/userService.ts):
    the credential lookup and the balance PATCH, with the effect such a PATCH
    has on a stored user record. */
module UserService {
  import opened Types
  import opened Json

  predicate MatchesCredentials(u: User, email: string, password: string) {
    u.email == email && u.password == password
  }

  /** `validateUser`'s transform: the first user with both the given email
      and the given password, or none. */
  function ValidateUser(users: seq<User>, email: string, password: string): (r: Option<User>)
    ensures r.None? <==> forall i :: 0 <= i < |users| ==> !MatchesCredentials(users[i], email, password)
    ensures r.Some? ==> exists i :: 0 <= i < |users| && users[i] == r.value
                          && MatchesCredentials(users[i], email, password)
                          && forall j :: 0 <= j < i ==> !MatchesCredentials(users[j], email, password)
  {
    if users == [] then None
    else if MatchesCredentials(users[0], email, password) then Some(users[0])
    else
      var r := ValidateUser(users[1..], email, password);
      assert forall i :: 1 <= i < |users| ==> users[i] == users[1..][i - 1];
      if r.Some? then
        var k :| 0 <= k < |users[1..]| && users[1..][k] == r.value
                 && MatchesCredentials(users[1..][k], email, password)
                 && forall j :: 0 <= j < k ==> !MatchesCredentials(users[1..][j], email, password);
        assert users[k + 1] == r.value;
        r
      else r
  }

  const UsersPrefix: string := "/users/"

  /** The user id a `/users/{id}` URL addresses. */
  function UserTarget(url: string): Option<string> {
    if |url| >= |UsersPrefix| && url[..|UsersPrefix|] == UsersPrefix then Some(url[|UsersPrefix|..])
    else None
  }

  function BalanceKey(t: PaymentType): string {
    if t == Paid then "paidLeaveBalance" else "unpaidLeaveBalance"
  }

  /** `updateLeaveBalance`: a PATCH of `/users/{userId}` whose body sets only
      the balance of the given type, to `currentBalance`. */
  function UpdateLeaveBalance(userId: string, t: PaymentType, days: int, currentBalance: int): (r: Request)
    ensures r.verb == PATCH
    ensures UserTarget(r.url) == Some(userId)
    ensures r.body.Keys == {BalanceKey(t)}
    ensures r.body[BalanceKey(t)] == JNum(currentBalance)
  {
    assert (UsersPrefix + userId)[..|UsersPrefix|] == UsersPrefix;
    assert (UsersPrefix + userId)[|UsersPrefix|..] == userId;
    Request(PATCH, UsersPrefix + userId, map[BalanceKey(t) := JNum(currentBalance)])
  }

  /** The value sent is the caller's `currentBalance`; `days` plays no part. */
  lemma UpdateLeaveBalanceIgnoresDays(userId: string, t: PaymentType, d1: int, d2: int, currentBalance: int)
    ensures UpdateLeaveBalance(userId, t, d1, currentBalance) == UpdateLeaveBalance(userId, t, d2, currentBalance)
  {
  }

  /** The server's merge of a PATCH body into a stored user: each balance key
      present with a number sets that balance. */
  function PatchUser(u: User, body: Object): (r: User)
    ensures r.id == u.id && r.name == u.name && r.email == u.email && r.password == u.password
    ensures r.role == u.role && r.reports == u.reports
    ensures forall t: PaymentType :: BalanceKey(t) !in body ==> UserBalance(r, t) == UserBalance(u, t)
  {
    var u1 := if BalanceKey(Paid) in body && body[BalanceKey(Paid)].JNum?
              then u.(paidLeaveBalance := body[BalanceKey(Paid)].n) else u;
    if BalanceKey(Unpaid) in body && body[BalanceKey(Unpaid)].JNum?
    then u1.(unpaidLeaveBalance := body[BalanceKey(Unpaid)].n) else u1
  }

  /** Applying the balance PATCH to the addressed user sets exactly the chosen
      balance to the value sent and leaves everything else as it was. */
  lemma PatchUserAppliesBalance(u: User, t: PaymentType, days: int, v: int)
    ensures PatchUser(u, UpdateLeaveBalance(u.id, t, days, v).body) == WithUserBalance(u, t, v)
  {
  }
}

=== FILE: validation.dfy ===
/** The checks the employee leave form runs before a request is created:
    the weekday count of the chosen range, the overlap flag against the
    user's existing requests, the balance flag, and the fixed order in which
    submit consults them (src/subcomponents/Employee/ApplyLeave.tsx). */
module Validation {
  import opened Types
  import opened Days

  /** The form's fields; an empty date input is `None`. */
  datatype ApplyForm = ApplyForm(
    startDate: Option<int>,
    endDate: Option<int>,
    leaveCategory: string,
    leavePaymentType: PaymentType,
    reason: string)

  predicate HasBothDates(form: ApplyForm) {
    form.startDate.Some? && form.endDate.Some?
  }

  /** The day-count effect: Monday-to-Friday dates in the chosen range, 0
      while either date is empty. */
  function DaysRequested(form: ApplyForm): (days: nat)
    ensures !HasBothDates(form) ==> days == 0
    ensures HasBothDates(form) ==> days == |WeekdaySet(form.startDate.value, form.endDate.value)|
    ensures HasBothDates(form) && form.endDate.value < form.startDate.value ==> days == 0
    ensures HasBothDates(form) && form.startDate.value <= form.endDate.value ==>
              days <= form.endDate.value - form.startDate.value + 1
  {
    if HasBothDates(form) then
      WeekdayCountIsCardinality(form.startDate.value, form.endDate.value);
      WeekdayCount(form.startDate.value, form.endDate.value)
    else 0
  }

  /** The inclusive-endpoint intersection test of two date ranges. */
  predicate RangesIntersect(newStart: int, newEnd: int, existingStart: int, existingEnd: int) {
    newStart <= existingEnd && newEnd >= existingStart
  }

  /** The test does not depend on which range is the new one. */
  lemma RangesIntersectSymmetric(s1: int, e1: int, s2: int, e2: int)
    ensures RangesIntersect(s1, e1, s2, e2) <==> RangesIntersect(s2, e2, s1, e1)
  {
  }

  predicate InRange(d: int, start: int, end: int) {
    start <= d <= end
  }

  /** For two non-empty ranges the test holds exactly when they share a day. */
  lemma RangesIntersectIffCommonDay(s1: int, e1: int, s2: int, e2: int)
    requires s1 <= e1 && s2 <= e2
    ensures RangesIntersect(s1, e1, s2, e2) <==> exists d :: InRange(d, s1, e1) && InRange(d, s2, e2)
  {
    if RangesIntersect(s1, e1, s2, e2) {
      var d := if s1 < s2 then s2 else s1;
      assert InRange(d, s1, e1) && InRange(d, s2, e2);
    }
  }

  /** A request still holds its dates unless it was cancelled or rejected. */
  predicate IsActive(l: Leave) {
    l.status != Cancelled && l.status != Rejected
  }

  predicate Conflicts(newStart: int, newEnd: int, l: Leave) {
    IsActive(l) && RangesIntersect(newStart, newEnd, l.startDate, l.endDate)
  }

  /** `leaveData.some(...)`: some existing request conflicts with the range. */
  function AnyConflict(newStart: int, newEnd: int, existing: seq<Leave>): (b: bool)
    ensures b <==> exists i :: 0 <= i < |existing| && Conflicts(newStart, newEnd, existing[i])
  {
    if existing == [] then false
    else if Conflicts(newStart, newEnd, existing[0]) then true
    else
      var b := AnyConflict(newStart, newEnd, existing[1..]);
      assert forall i :: 1 <= i < |existing| ==> existing[i] == existing[1..][i - 1];
      b
  }

  /** The overlap effect: false while either date is empty, otherwise whether
      an active existing request intersects the chosen range. */
  function OverlapFlag(form: ApplyForm, existing: seq<Leave>): (overlap: bool)
    ensures !HasBothDates(form) ==> !overlap
    ensures overlap <==> (HasBothDates(form) &&
              exists i :: 0 <= i < |existing| &&
                existing[i].status != Cancelled && existing[i].status != Rejected &&
                form.startDate.value <= existing[i].endDate && form.endDate.value >= existing[i].startDate)
  {
    HasBothDates(form) && AnyConflict(form.startDate.value, form.endDate.value, existing)
  }

  /** The balance effect. With a positive day count it flags exactly a count
      above the balance of the chosen type; otherwise it keeps its value. */
  function BalanceErrorEffect(previous: bool, days: int, t: PaymentType, balances: Balances): (flag: bool)
    ensures days > 0 ==> (flag <==> days > balances.Get(t))
    ensures days <= 0 ==> flag == previous
  {
    if days > 0 then
      if t == Paid && days > balances.paid then true
      else if t == Unpaid && days > balances.unpaid then true
      else false
    else previous
  }

  /** The balance of the type not chosen is never consulted. */
  lemma BalanceErrorIgnoresOtherType(previous: bool, days: int, t: PaymentType, b1: Balances, b2: Balances)
    requires b1.Get(t) == b2.Get(t)
    ensures BalanceErrorEffect(previous, days, t, b1) == BalanceErrorEffect(previous, days, t, b2)
  {
  }

  datatype ApplyError =
    | NotAuthenticated
    | NoManager
    | InvalidDates
    | InsufficientBalance(t: PaymentType)
    | OverlapsExisting
    | SubmitFailed

  /** `!userData?.reports`: no user record loaded, or no manager recorded. */
  predicate HasManager(userData: Option<User>) {
    userData.Some? && userData.value.reports != ""
  }

  /** The checks of submit, in order; the first one that fails is the only
      error reported. `userId` is "" when there is no signed-in user. */
  function CheckSubmit(userId: string, userData: Option<User>, days: int, balanceError: bool,
                       overlapError: bool, t: PaymentType): (e: Option<ApplyError>)
    ensures e.None? <==> userId != "" && HasManager(userData) && days > 0 && !balanceError && !overlapError
    ensures e == Some(NotAuthenticated) <==> userId == ""
    ensures e == Some(NoManager) <==> userId != "" && !HasManager(userData)
    ensures e == Some(InvalidDates) <==> userId != "" && HasManager(userData) && days <= 0
    ensures e == Some(InsufficientBalance(t)) <==>
              userId != "" && HasManager(userData) && days > 0 && balanceError
    ensures e == Some(OverlapsExisting) <==>
              userId != "" && HasManager(userData) && days > 0 && !balanceError && overlapError
    ensures e != Some(SubmitFailed)
  {
    if userId == "" then Some(NotAuthenticated)
    else if !HasManager(userData) then Some(NoManager)
    else if days <= 0 then Some(InvalidDates)
    else if balanceError then Some(InsufficientBalance(t))
    else if overlapError then Some(OverlapsExisting)
    else None
  }
}
